=== FILE: README.md ===
# browserify-cortex dependency resolver, modelled in Dafny

browserify-cortex bundles a Cortex project with browserify. It does this in three steps:

- It reads the project's `cortex.json` and asks the Cortex registry about every declared dependency.
- It clones each chosen package's git repository and hard-resets the clone to the published `gitHead`.
- It follows the dependencies the clone declares, transitively. Once every package in the dependency tree is done, it builds `bundle.js`.

This project models that resolver. Two entry points share the logic: `lib/application.js` and the older `index.js`. The modelled pieces are:

- **The dependency tree** (`DependencyTree`). It maps package names to entries. An entry starts as the placeholder `{}`. A registry reply replaces it with a resolved record, and `next` marks it done. `checkDone` decides completion with a counting loop.
- **Version selection and the clone URL** (`Registry`, `UrlRewrite`, `Text`, `JsValues`):
  - The request callback walks the `versions` object in enumeration order. Each version that satisfies the range overwrites the previous pick.
  - It looks up the repository through a fallback chain: the version's `repository`, then the top-level one, then a static table. Each is consulted only when the previous is `=== undefined`.
  - It reads the clone URL. `lib/application.js` reads the chain's `.url`, with a second static table for URLs that are `null` or `undefined`. `index.js` reads the top-level `url || events`.
  - It rewrites the URL: the first `git://` becomes `http://`, then the first `git@github.com:` becomes `https://github.com/`.
  - Reading a property off `undefined` or `null`, or calling `.replace` on a value that is not a string, throws a TypeError. The model represents such a throw as `None`, and the reply then leaves the state as it was. In the source no `try` surrounds these lines, so the exception is uncaught and ends the Node process. "## Left out" records this simplification.
- **The child dependencies of a fetched package** (`Manifest`). If the snapshot's `cortex.json` loads, its `dependencies` are used. Otherwise `package.json`'s `cortex.dependencies` is used, else nothing.
- **The asynchronous control flow** (`Resolver`). It is a state machine over two kinds of event:
  - a registry reply for a requested name;
  - a clone chain settling, either successfully or with a git error.

  `next` runs after success, and after any error whose message contains `Object not found`. The state records:
  - the tree;
  - the registry requests in flight, with the dependencies object each callback closes over;
  - the clones in flight;
  - every request ever made;
  - how many times `buildBundle` was called.

  `buildBundle` throws when some entry has no string `main`, because `path.join` rejects it. The call sits outside `next`'s `try`, so in that case the package's children are never discovered.

  Any sequence of events is one interleaving of the callbacks. An event whose request or clone is not in flight changes nothing.

`semver.satisfies` is a parameter of the model: any function from a version and an optional range to a boolean.

## Where the code differs from what a reader might expect (the model follows the code)

- **Version choice.** One might expect the highest satisfying version to be chosen. The code keeps the *last* satisfying version in `for...in` order. `Registry.PickDependsOnOrder` shows that the choice depends on that order. `Registry.LastIsHighestWhenAscending` shows it is the highest when the registry lists versions in ascending order; `Registry.PickDependsOnOrder` shows it need not be otherwise.
- **Bundle firing.** One might expect the bundle to be built exactly once, after every package is done. The code calls `checkDone` inside `next` *before* it inserts the package's children, with no once-only guard. So the bundle fires each time marking a package makes every current entry done. This can happen while a child is about to be added, and it can happen again later. `Resolver.CompletionCheckedBeforeChildren` and `Scenarios.BundleFiresBeforeChild` show this.
- **Failed registry lookups.** One might expect a failed lookup to mark a failed node that still allows completion. In the code, for a registry that reports the name it was asked for, a transport error or a non-200 status leaves the placeholder `{}` in the tree for good. (A reply for another pending name whose body reports this name would overwrite the placeholder, because lib/application.js:107 stores the entry under the reported name.) (A body that fails to parse throws instead, which ends the process.) After that, `checkDone` is never true again and the bundle never fires. The same holds, for such a registry, for a clone that fails with any error other than `Object not found`. `Resolver.StuckEntryBlocksCompletion` and `Scenarios.FailedLookupNeverCompletes` show this.
- **Idempotence of the rewrite.** The URL rewrite is not idempotent, because `replace` with a string pattern rewrites only the first occurrence. `UrlRewrite.RewriteNotIdempotent` shows this.

## Model

| member | source | states |
|---|---|---|
| JsValues.UrlOf | lib/application.js:84 | reading `repository.url` throws exactly when the repository is `undefined` or `null`; a non-object repository yields `undefined` |
| JsValues.EventsOf | index.js:77 | reading `repository.events` throws exactly when the repository is `undefined` or `null` |
| JsValues.RepoAt | lib/application.js:75 | `findRepository[name]` is `undefined` for a name the table lacks, else the table's value |
| JsValues.FieldAt | lib/application.js:87 | `findRepositoryUrl[name]` is `undefined` for a name the table lacks, else the table's value |
| Text.IndexOfFrom | lib/application.js:127 | the search finds the leftmost occurrence at or after the start index, or reports that none exists |
| Text.IndexOf | lib/application.js:127 | `indexOf` is -1 exactly when the pattern occurs nowhere; otherwise it is the leftmost occurrence |
| Text.ContainsIffOccurs | lib/application.js:127 | `~indexOf(pat)` is truthy exactly when `pat` starts somewhere in the message |
| Text.ReplaceFirst | lib/application.js:101 | `replace` with a string pattern splices the replacement in at the leftmost occurrence only, and leaves a string without the pattern unchanged |
| Text.FirstOccurrenceUnique | lib/application.js:101 | the leftmost occurrence is unique, so the replacement position is well defined |
| UrlRewrite.Rewrite | lib/application.js:101 | a URL containing neither `git://` nor `git@github.com:` is used as is |
| UrlRewrite.RewriteGitScheme | lib/application.js:101 | `git://rest` becomes `http://rest` when `rest` has no SSH shorthand |
| UrlRewrite.RewriteGithubSsh | index.js:90 | `git@github.com:rest` becomes `https://github.com/rest` when `rest` has no `git://` |
| UrlRewrite.RewriteStableOnCleanUrl | lib/application.js:101 | rewriting a clean URL twice equals rewriting it once, which equals the URL |
| UrlRewrite.RewriteNotIdempotent | lib/application.js:101 | `git://git://x` changes again on a second rewrite, so the rewrite is not idempotent |
| Manifest.ChildDependencies | lib/application.js:146-155 | no loadable manifest means no children; every child is declared by `cortex.json` when it loads, else by `package.json`'s `cortex` section |
| Manifest.CortexJsonShadowsPackageJson | lib/application.js:148-150 | once `cortex.json` loads, `package.json` cannot change the children, and a missing `dependencies` means none |
| Manifest.PackageJsonFallback | lib/application.js:151-153 | without `cortex.json`, the children are `cortex.dependencies` of `package.json`, and none without a `cortex` section |
| Manifest.PackageDeclared | lib/application.js:153 | `cortex && cortex.dependencies || {}`: the cortex section's dependencies when both exist, else none |
| DependencyTree.CheckDone | lib/application.js:42-51 | the counting loop returns true exactly when every entry of the tree has `done` set |
| DependencyTree.Insert | lib/application.js:54-57 | keys become old keys plus declared names; existing entries are untouched; new names get the placeholder |
| DependencyTree.InsertNewNameBlocksCompletion | lib/application.js:55-57 | inserting a name not yet in the tree makes the tree not done |
| DependencyTree.InsertIdempotent | lib/application.js:55 | declaring the same names again changes nothing |
| DependencyTree.InsertKnownNamesKeepsVerdict | lib/application.js:55 | declaring only known names does not change whether the tree is done |
| Registry.RangeOf | lib/application.js:66 | the range is `dependencies[name]` for the reported name, or `undefined` when that name is not declared |
| Registry.FirstDefined | lib/application.js:68-76 | the result is `undefined` exactly when all sources are; otherwise it is the first source that is not `undefined` |
| Registry.RepositoryChainIsFirstDefined | lib/application.js:68-76 | the chain equals the first defined of [version repository, top-level repository, static table entry]; a `null` version repository stops the chain |
| Registry.RepositoryChain | lib/application.js:68-76 | a defined version repository wins; otherwise a defined top-level repository; the result is `undefined` only if both are (equality with the first-defined list is `Registry.RepositoryChainIsFirstDefined`) |
| Registry.RawUrl | lib/application.js:84-94 | a chain whose first defined repository is `null`, or that ends in `undefined`, throws, and in `index.js` a missing or `null` top-level repository throws; the other cases are stated by `Registry.ApplicationUrlFallback` and `Registry.LegacyUrlOrEvents` |
| Registry.ApplicationPrefersVersionUrl | lib/application.js:68-84 | a string `url` on the version's own repository is the raw clone URL |
| Registry.ApplicationUrlFallback | lib/application.js:84-88 | a chain ending in `undefined`/`null` throws; a string `url` is used; a `url` that is loosely `undefined`, or a non-object repository, falls back to the URL table, and a result that is not a string throws |
| Registry.LegacyIgnoresVersionRepository | index.js:77 | in `index.js`, the raw URL does not depend on the version's metadata at all |
| Registry.LegacyUrlOrEvents | index.js:77 | `index.js` uses the top-level `url` when truthy, else `events`; a missing, `null` or non-object top-level repository throws or yields no string |
| Registry.EntryFor | lib/application.js:95-103 | the built entry is not done and records the reported name, the version, the version's `gitHead` and `main`, and the rewritten raw URL as `repository`; building it throws exactly when the raw URL is unusable |
| Registry.PickLast | lib/application.js:65-66 | the pick satisfies the range and no later version does; there is no pick exactly when no version satisfies |
| Registry.PickLastFindsLast | lib/application.js:65-66 | conversely, the last satisfying index is the pick |
| Registry.ResolvePrefix | lib/application.js:64-105 | any entry the loop holds part-way is not done and, when resolved, carries the reported name (its relation to the last satisfying version is `Registry.ResolvePrefixIsLastSatisfying`) |
| Registry.Resolve | lib/application.js:64-107 | the entry stored is never done and carries the reported name; with no versions it is `{}` |
| Registry.ResolvePrefixIsLastSatisfying | lib/application.js:64-105 | after any prefix of the loop, the callback has thrown exactly when a satisfying version in it has no usable URL; otherwise `newDependent` is the last satisfying version's entry, or `{}` |
| Registry.ResolveIsLastSatisfying | lib/application.js:64-107 | the stored entry is the last satisfying version's entry, or `{}` when none satisfies; the callback throws exactly when a satisfying version lacks a usable URL; the stored entry is never done |
| Registry.PickDependsOnOrder | lib/application.js:65-66 | swapping two satisfying versions in enumeration order swaps the pick |
| Registry.LastIsHighestWhenAscending | lib/application.js:65-66 | with ascending enumeration, the pick is above every other satisfying version |
| Resolver.GetDependencies | lib/application.js:53-59 | each declared name that is not yet a key gets the placeholder and exactly one request closing over the declaring object; names already present are skipped; nothing else changes |
| Resolver.Dispatch | lib/application.js:59 | the pending requests grow by the new names, each with the declaring dependencies object; earlier requests keep theirs |
| Resolver.OnRegistryReply | lib/application.js:59-114 | a reply issues no request and never calls `buildBundle`; anything but a 200 with a parsed body, or a throw while building the entry, changes nothing; otherwise the resolved entry is stored under the reported name, that name's clone starts, and every other entry is kept |
| Resolver.ReplyStoresLastSatisfying | lib/application.js:59-114 | a 200 reply for a pending request ends it and stores, under the reported name, the entry of the last version satisfying the range the requesting `dependencies` object gives that name (`{}` when none does), starting its clone; when building that entry throws, the tree and clones stay as they were |
| Resolver.Mark | lib/application.js:142 | the same keys; the named entry is done with its record kept; every other entry is unchanged |
| Resolver.Init | lib/application.js:216 | startup puts every root dependency in the tree as a placeholder with one pending request; nothing is cloning and the bundle has not fired |
| Resolver.Next | lib/application.js:141-159 | `next` marks the package done, changes no other entry and never removes a key; the bundle count rises by one exactly when the marked tree is done; unless `buildBundle` throws, every child becomes a key and each new child gets the placeholder and a pending request; for a name missing from the tree it changes nothing (after a successful clone the thrown error is caught and logged by the fetch chain; after `Object not found` it is an unhandled rejection, see "## Left out") |
| Resolver.Step | lib/application.js:53-159 | no event removes a tree key, lowers the request counts or fires the bundle more than once |
| Resolver.Run | lib/application.js:53-159 | over any sequence of callbacks, no key is removed and the bundle count rises by at most one per callback |
| Resolver.GetDependenciesConsistent | lib/application.js:53-59 | `getDependencies` keeps every name requested at most once, and every requested name in the tree |
| Resolver.StepConsistent | lib/application.js:59-159 | every callback keeps that consistency, whatever the registry answers |
| Resolver.RunConsistent | lib/application.js:59-159 | any interleaving of callbacks keeps that consistency |
| Resolver.AtMostOneRequestPerName | lib/application.js:55-59 | from startup, no interleaving requests a name from the registry twice, and every requested name has a tree entry |
| Resolver.InitInFlightNotDone | lib/application.js:216 | at startup, every pending request's entry is a not-done placeholder |
| Resolver.ReplyInFlightNotDone | lib/application.js:59-114 | when the registry reports the requested name, a reply keeps every in-flight entry not done |
| Resolver.NextInFlightNotDone | lib/application.js:141-159 | `next` on a settled package keeps every in-flight entry not done |
| Resolver.StepInFlightNotDone | lib/application.js:59-159 | every callback preserves "nothing in flight is done", for a registry that reports the requested name |
| Resolver.RunInFlightNotDone | lib/application.js:59-159 | every interleaving of callbacks preserves it, for a registry that reports the requested name |
| Resolver.QuiescentWhenAllDone | lib/application.js:42-51 | when every entry is done in a state where nothing in flight is done (an invariant only for a registry that reports the requested name), no request and no clone is in flight |
| Resolver.BundleFiresOnlyFromNext | lib/application.js:141-145 | only a clone that proceeds to `next`, and whose marking completes the tree, fires the bundle |
| Resolver.MarkCompletesOnlyWhenQuiescent | lib/application.js:142-143 | under that invariant, if marking a cloning package completes the tree, that clone was the only thing in flight |
| Resolver.BundleFiresOnlyWhenQuiescent | lib/application.js:141-145 | under that invariant (so for a registry that reports the requested name), the bundle fires only when no registry request and no other clone is in flight |
| Resolver.CompletionMeansQuiescent | lib/application.js:42-51 | after any run from startup in which the registry reports the requested name, a done tree means nothing is in flight |
| Resolver.CompletionCheckedBeforeChildren | lib/application.js:141-155 | whenever marking completes the current tree, the bundle count rises by one; if `buildBundle` does not throw, a newly declared child then leaves the tree not done |
| Resolver.FailedBundleSkipsChildren | lib/application.js:143-155 | when the tree is complete but some entry has no string `main`, `buildBundle` throws before the children are discovered: the tree is only marked, stays done, and no request is made |
| Resolver.ObjectNotFoundActsAsSuccess | lib/application.js:126-129 | an error whose message contains `Object not found` has the same effect as a successful clone |
| Resolver.Proceeds | lib/application.js:123-129 | `next` runs after success or an error mentioning `Object not found`; its effect is stated by `Resolver.ObjectNotFoundActsAsSuccess` and `Resolver.OtherGitErrorDiscoversNothing` |
| Resolver.OtherGitErrorDiscoversNothing | lib/application.js:126-134 | any other git error only ends the clone: the tree, requests and bundle count are unchanged |
| Resolver.FailedLookupLeavesPlaceholder | lib/application.js:60 | a transport error or a non-200 status leaves the tree and the clones untouched (an unparsable body is treated the same way; in the source it ends the process) |
| Resolver.MismatchedNameLeavesRequestedEntry | lib/application.js:107 | a reply reporting a different name never overwrites the requested name's entry |
| Resolver.StepKeepsStuck | lib/application.js:59-159 | for a registry that reports the requested name, a not-done entry with nothing in flight for it stays that way, and the bundle does not fire |
| Resolver.StuckEntryBlocksCompletion | lib/application.js:42-51 | once such an entry exists, no later interleaving in which the registry reports the requested name makes `checkDone` true or fires the bundle |
| Scenarios.FirstReplyPicksLastMatch | lib/application.js:65-107 | with versions 1.0.0, 1.2.0, 2.0.0 and a range admitting the first two, 1.2.0 is stored with its `git://` URL rewritten to `http://` |
| Scenarios.BundleFiresBeforeChild | lib/application.js:141-155 | after the first package is cloned, the bundle has fired once while its child is a fresh placeholder and the tree is not done |
| Scenarios.TwoPackageRunBundlesTwice | lib/application.js:141-155 | after the child is cloned too, the tree holds both packages, all done, and the bundle has fired twice |
| Resolver.IdleRunUnchanged | lib/application.js:53-159 | with no registry request and no clone in flight, no interleaving of events changes the state, whatever the registry reports |
| Scenarios.FailedLookupNeverCompletes | lib/application.js:60 | after a 500 for the only root dependency, nothing is in flight, so no interleaving ever completes the tree or fires the bundle |

## Left out

- HTTP, `JSON.parse`, git cloning, `getCommit` and the hard reset are not performed. Their results arrive as events: a response (transport error, status, parsed body or parse failure) and a fetch outcome (success or an error message).
- `require` of a snapshot's manifests is not performed. Its result is an optional parsed `cortex.json` and `package.json` carried by the fetch event.
- `semver.satisfies` is not interpreted. It is a parameter, so every property holds for any range semantics.
- `buildBundle` (browserify, writing `bundle.js`) is represented by a counter of how often it is called, plus its one throw that matters to the tree: a `main` that is not a string. The bundling itself is foreign code. So is `browserifyInstance.add(cortexJson.main)`, whose behaviour on a missing root `main` is not modelled.
- A TypeError thrown inside the registry callback (lib/application.js:84 and 101, index.js:77 and 90), or a `JSON.parse` failure (lib/application.js:61, index.js:55), is an uncaught exception. It ends the Node process. The model simplifies it to an aborted reply that leaves the state as it was, except that the request is no longer in flight. Properties of later events in such a run describe a process that in reality has stopped.
- When a clone fails with `Object not found`, `next` runs inside the fetch chain's `catch` callback (lib/application.js:126-128). A throw from `next` there (a missing entry, or `buildBundle`'s `path.join` TypeError at lib/application.js:168-169) skips the logging at lines 130-133 and rejects the promise `.catch` returns, which nothing handles; from Node 15 on that ends the process. The model keeps the effect on the tree (the marked state, children not discovered) and lets later events run, so properties of those events describe a process that in reality may have stopped. After a successful clone the same throw is caught and only logged.
- `Resolver.Init` models only the branch of lib/application.js:209-217 where `fs.rmdir` of the working directory succeeds. `fs.rmdir` removes only an empty directory, so it fails when the directory is missing or left over from an earlier run. Then nothing is requested and the tree stays `{}`. `index.js` (line 184) starts unconditionally.
- The usage tracker's `err` and `end` handlers call `process.exit` (lib/application.js:201-206, index.js:177-182), which can end a run at any point. The model does not represent the process ending. Logging and the tracker's reports do not affect the tree.
- The Windows `path.sep` fix-up of the project folder is left out. It only affects the clone's destination path.
- The static tables `fallback/repository.js`, `fallback/repository-url.js` and `lib/repository.js` are not part of this model. They are parameters of the URL rule.
- JSON values in `url`, `events` and `repository` are limited to missing, `null`, a string and (for `repository`) an object or a non-object. A number or boolean where a string is expected is not modelled.
- The registry-reported `name` is always a string, and a version key that JavaScript would enumerate in integer order is taken in the order given.
- The tree is a plain JavaScript object, and `!tree[dep]` (lib/application.js:55) treats inherited keys such as `constructor` as already present. Assigning `tree["__proto__"]` sets the prototype instead of adding an entry. A Dafny `map` has neither behaviour, so package names that collide with `Object.prototype` members are not modelled faithfully.
- Concurrency is modelled as interleaving. Each callback runs to completion, as on Node's single thread.
- Resolver.CompletionMeansQuiescent: assumes the registry reports the name it was asked for. A reply that reports a different name can add an entry that no request or clone covers.
- Resolver.StuckEntryBlocksCompletion: assumes the registry reports the name it was asked for, for the same reason.
- Resolver.RunInFlightNotDone, Resolver.StepInFlightNotDone and Resolver.StepKeepsStuck: assume the registry reports the name it was asked for. From startup with two names, a reply for one that reports the other already breaks "nothing in flight is done".
- Resolver.BundleFiresOnlyWhenQuiescent, Resolver.MarkCompletesOnlyWhenQuiescent and Resolver.QuiescentWhenAllDone: assume "nothing in flight is done", which the model establishes only for such a registry.
- Resolver.Step: its own contract states only monotonicity. What each event does is stated by the contracts of `Resolver.OnRegistryReply` and `Resolver.Next` and by the lemmas about `Step` (`Resolver.ReplyStoresLastSatisfying`, `Resolver.FailedLookupLeavesPlaceholder`, `Resolver.ObjectNotFoundActsAsSuccess`, `Resolver.OtherGitErrorDiscoversNothing`, `Resolver.BundleFiresOnlyFromNext`).

=== FILE: js_values.dfy ===
/**
 * The few shapes of parsed JSON that the resolver reads, with the JavaScript
 * behaviour that matters for it: `undefined` versus `null`, truthiness, and the
 * TypeError raised when a property is read off `undefined` or `null`.
 */
module JsValues {
  import opened Wrappers

  /** A property expected to hold a string: missing, `null`, or a string. */
  datatype Field = Undefined | Null | Str(s: string)

  /** JavaScript truthiness of a field: only a non-empty string is truthy. */
  predicate Truthy(f: Field) {
    f.Str? && f.s != ""
  }

  /** `f == undefined` with loose equality holds for both `undefined` and `null`. */
  predicate LooselyUndefined(f: Field) {
    f.Undefined? || f.Null?
  }

  /**
   * A `repository` property: missing, `null`, a non-object value (a bare
   * string, say, whose `.url` is `undefined`), or an object with `url` and
   * `events` properties.
   */
  datatype Repo = Absent | NullRepo | Scalar | Object(url: Field, events: Field)

  /** Reading `.url`; `None` when the read throws because the value is `undefined` or `null`. */
  function UrlOf(r: Repo): (f: Option<Field>)
    ensures f.None? <==> r.Absent? || r.NullRepo?
    ensures r.Object? ==> f == Some(r.url)
    ensures r.Scalar? ==> f == Some(Undefined)
  {
    match r
    case Absent => None
    case NullRepo => None
    case Scalar => Some(Undefined)
    case Object(url, _) => Some(url)
  }

  /** Reading `.events`; `None` when the read throws. */
  function EventsOf(r: Repo): (f: Option<Field>)
    ensures f.None? <==> r.Absent? || r.NullRepo?
    ensures r.Object? ==> f == Some(r.events)
    ensures r.Scalar? ==> f == Some(Undefined)
  {
    match r
    case Absent => None
    case NullRepo => None
    case Scalar => Some(Undefined)
    case Object(_, events) => Some(events)
  }

  /** `table[name]` on a static table of repositories: a missing key reads as `undefined`. */
  function RepoAt(table: map<string, Repo>, name: string): (r: Repo)
    ensures name !in table ==> r.Absent?
    ensures name in table ==> r == table[name]
  {
    Get(table, name).GetOr(Absent)
  }

  /** `table[name]` on a static table of URLs: a missing key reads as `undefined`. */
  function FieldAt(table: map<string, Field>, name: string): (f: Field)
    ensures name !in table ==> f.Undefined?
    ensures name in table ==> f == table[name]
  {
    Get(table, name).GetOr(Undefined)
  }
}

=== FILE: manifest.dfy ===
/**
 * The two manifest files a fetched package may carry, and the choice between
 * them that decides which dependencies the package contributes.
 */
module Manifest {
  import opened Wrappers

  /** A `dependencies` object: package name to semantic-version range. */
  type Deps = map<string, string>

  /** `cortex.json` as loaded by `require`; its `dependencies` may be missing. */
  datatype CortexJson = CortexJson(dependencies: Option<Deps>)

  /** The `cortex` section of a `package.json`; its `dependencies` may be missing. */
  datatype CortexSection = CortexSection(dependencies: Option<Deps>)

  /** `package.json` as loaded by `require`; the `cortex` section may be missing. */
  datatype PackageJson = PackageJson(cortex: Option<CortexSection>)

  /** What `require` yields for each manifest of a snapshot; `None` when loading throws. */
  datatype Manifests = Manifests(cortexJson: Option<CortexJson>, packageJson: Option<PackageJson>)

  /** The dependencies a package declares in the `cortex` section of its `package.json`, or `{}`. */
  function PackageDeclared(p: PackageJson): (d: Deps)
    ensures p.cortex.None? ==> d == map[]
    ensures p.cortex.Some? && p.cortex.value.dependencies.None? ==> d == map[]
    ensures p.cortex.Some? && p.cortex.value.dependencies.Some? ==> d == p.cortex.value.dependencies.value
  {
    match p.cortex
    case Some(section) => section.dependencies.GetOr(map[])
    case None => map[]
  }

  /**
   * The dependencies discovered in a fetched snapshot: `cortex.json`'s
   * `dependencies` when that file loads, else `package.json`'s
   * `cortex.dependencies`, else nothing. A missing `dependencies` property
   * contributes nothing (iterating over `undefined` visits no key), and a
   * failure to load either file is swallowed.
   */
  function ChildDependencies(m: Manifests): (d: Deps)
    ensures m.cortexJson.None? && m.packageJson.None? ==> d == map[]
    ensures forall n :: n in d ==>
      (m.cortexJson.Some? && m.cortexJson.value.dependencies.Some? && n in m.cortexJson.value.dependencies.value)
      || (m.cortexJson.None? && m.packageJson.Some? && n in PackageDeclared(m.packageJson.value))
  {
    match m.cortexJson
    case Some(c) => c.dependencies.GetOr(map[])
    case None =>
      match m.packageJson
      case Some(p) => PackageDeclared(p)
      case None => map[]
  }

  /** Once `cortex.json` loads, `package.json` is never consulted. */
  lemma CortexJsonShadowsPackageJson(c: CortexJson, p1: Option<PackageJson>, p2: Option<PackageJson>)
    ensures ChildDependencies(Manifests(Some(c), p1)) == ChildDependencies(Manifests(Some(c), p2))
    ensures ChildDependencies(Manifests(Some(c), p1)) == c.dependencies.GetOr(map[])
  {
  }

  /** Without a loadable `cortex.json`, the `package.json` fallback decides. */
  lemma PackageJsonFallback(p: PackageJson)
    ensures ChildDependencies(Manifests(None, Some(p))) == PackageDeclared(p)
    ensures p.cortex.None? ==> ChildDependencies(Manifests(None, Some(p))) == map[]
  {
  }
}

=== FILE: registry.dfy ===
/**
 * Turning one registry document into a tree entry: the version pick, the
 * repository fallback chain, the clone-URL rule of each entry point and the
 * URL rewrite, exactly as the request callback performs them.
 */
module Registry {
  import opened Wrappers
  import opened JsValues
  import opened UrlRewrite
  import opened Manifest
  import opened DependencyTree

  /** One published version's metadata: `repository`, `gitHead` and `main`. */
  datatype VersionInfo = VersionInfo(repository: Repo, gitHead: Field, main: Field)

  /** One key of the `versions` object together with its value. */
  datatype VersionEntry = VersionEntry(version: string, info: VersionInfo)

  /**
   * A parsed registry document: its `name`, the `versions` object in the order
   * `for...in` enumerates it, and the top-level `repository`.
   */
  datatype RegistryDoc = RegistryDoc(name: string, versions: seq<VersionEntry>, repository: Repo)

  /**
   * `semver.satisfies(version, range)`, left uninterpreted. The range is
   * `None` when the looked-up name is not a key of the dependencies object.
   */
  type Satisfies = (string, Option<string>) -> bool

  /**
   * How the clone URL is derived. `Application` (lib/application.js) reads
   * `.url` of the fallback chain's repository and falls back to a static URL
   * table; `Legacy` (index.js) reads `url || events` of the top-level
   * repository. Both compute the chain, each from its own static table.
   */
  datatype UrlRule =
    | Application(findRepository: map<string, Repo>, findRepositoryUrl: map<string, Field>)
    | Legacy(findRepository: map<string, Repo>)

  /** `dependencies[name]`: the range declared for `name` by the manifest that dispatched the request. */
  function RangeOf(deps: Deps, name: string): (r: Option<string>)
    ensures r.Some? <==> name in deps
    ensures r.Some? ==> r.value == deps[name]
  {
    Get(deps, name)
  }

  /** The first source that is not `undefined`, or `undefined` when all are. */
  function FirstDefined(sources: seq<Repo>): (r: Repo)
    ensures r.Absent? <==> forall i :: 0 <= i < |sources| ==> sources[i].Absent?
    ensures !r.Absent? ==> exists i :: 0 <= i < |sources| && sources[i] == r && forall j :: 0 <= j < i ==> sources[j].Absent?
    decreases |sources|
  {
    if |sources| == 0 then Absent
    else if !sources[0].Absent? then sources[0]
    else
      var r := FirstDefined(sources[1..]);
      assert forall i :: 1 <= i < |sources| ==> sources[i] == sources[1..][i - 1];
      r
  }

  /**
   * The repository fallback chain: the version's `repository`, then the
   * top-level one, then the static table, each consulted only when the one
   * before is `=== undefined` (so a `null` stops the chain).
   */
  function RepositoryChain(versionRepo: Repo, topRepo: Repo, table: map<string, Repo>, name: string): (r: Repo)
    ensures !versionRepo.Absent? ==> r == versionRepo
    ensures versionRepo.Absent? && !topRepo.Absent? ==> r == topRepo
    ensures r.Absent? ==> versionRepo.Absent? && topRepo.Absent?
  {
    if !versionRepo.Absent? then versionRepo
    else if !topRepo.Absent? then topRepo
    else RepoAt(table, name)
  }

  /** The chain is the first defined entry of the ordered list of sources. */
  lemma RepositoryChainIsFirstDefined(versionRepo: Repo, topRepo: Repo, table: map<string, Repo>, name: string)
    ensures RepositoryChain(versionRepo, topRepo, table, name) == FirstDefined([versionRepo, topRepo, RepoAt(table, name)])
    ensures versionRepo.NullRepo? ==> RepositoryChain(versionRepo, topRepo, table, name).NullRepo?
  {
    var sources := [versionRepo, topRepo, RepoAt(table, name)];
    if versionRepo.Absent? {
      assert sources[1..] == [topRepo, RepoAt(table, name)];
      if topRepo.Absent? {
        assert sources[1..][1..] == [RepoAt(table, name)];
        assert FirstDefined(sources[1..][1..]) == RepoAt(table, name) by {
          assert sources[1..][1..][1..] == [];
        }
      }
    }
  }

  /**
   * The clone URL before the rewrite, or `None` where the callback throws a
   * TypeError (reading `.url` off `undefined`/`null`, or calling `.replace`
   * on a URL that is not a string).
   */
  function RawUrl(rule: UrlRule, name: string, doc: RegistryDoc, info: VersionInfo): (r: Option<string>)
    ensures rule.Legacy? && (doc.repository.Absent? || doc.repository.NullRepo?) ==> r.None?
    ensures rule.Application? && (RepositoryChain(info.repository, doc.repository, rule.findRepository, name).NullRepo? || RepositoryChain(info.repository, doc.repository, rule.findRepository, name).Absent?) ==> r.None?
  {
    var repository := RepositoryChain(info.repository, doc.repository, rule.findRepository, name);
    match rule
    case Application(_, findRepositoryUrl) =>
      (match UrlOf(repository)
       case None => None
       case Some(url) =>
         var repositoryUrl := if LooselyUndefined(url) then FieldAt(findRepositoryUrl, name) else url;
         if repositoryUrl.Str? then Some(repositoryUrl.s) else None)
    case Legacy(_) =>
      match (UrlOf(doc.repository), EventsOf(doc.repository))
      case (Some(url), Some(events)) =>
        var repositoryUrl := if Truthy(url) then url else events;
        if repositoryUrl.Str? then Some(repositoryUrl.s) else None
      case _ => None
  }

  /** lib/application.js: a string `url` on the version's own repository wins over every fallback. */
  lemma ApplicationPrefersVersionUrl(rule: UrlRule, name: string, doc: RegistryDoc, info: VersionInfo, url: string, events: Field)
    requires rule.Application?
    requires info.repository == Object(Str(url), events)
    ensures RawUrl(rule, name, doc, info) == Some(url)
  {
  }

  /**
   * lib/application.js: the chain's repository gives the URL; a `url` that is
   * `null` or `undefined` (or a repository that is not an object) falls back
   * to the static URL table; a chain ending in `undefined` or `null` throws.
   */
  lemma ApplicationUrlFallback(rule: UrlRule, name: string, doc: RegistryDoc, info: VersionInfo)
    requires rule.Application?
    ensures var repository := RepositoryChain(info.repository, doc.repository, rule.findRepository, name);
      && (repository.Absent? || repository.NullRepo? ==> RawUrl(rule, name, doc, info).None?)
      && (repository.Object? && repository.url.Str? ==> RawUrl(rule, name, doc, info) == Some(repository.url.s))
      && ((repository.Scalar? || (repository.Object? && LooselyUndefined(repository.url))) ==>
            RawUrl(rule, name, doc, info) ==
              (if FieldAt(rule.findRepositoryUrl, name).Str? then Some(FieldAt(rule.findRepositoryUrl, name).s) else None))
  {
  }

  /** index.js: the per-version repository and the static table never influence the URL. */
  lemma LegacyIgnoresVersionRepository(rule: UrlRule, name: string, doc: RegistryDoc, info1: VersionInfo, info2: VersionInfo)
    requires rule.Legacy?
    ensures RawUrl(rule, name, doc, info1) == RawUrl(rule, name, doc, info2)
  {
  }

  /** index.js: the URL is the top-level `url` when truthy, else `events`; a missing top-level repository throws. */
  lemma LegacyUrlOrEvents(rule: UrlRule, name: string, doc: RegistryDoc, info: VersionInfo)
    requires rule.Legacy?
    ensures doc.repository.Absent? || doc.repository.NullRepo? ==> RawUrl(rule, name, doc, info).None?
    ensures doc.repository.Object? && Truthy(doc.repository.url) ==> RawUrl(rule, name, doc, info) == Some(doc.repository.url.s)
    ensures doc.repository.Object? && !Truthy(doc.repository.url) ==>
      RawUrl(rule, name, doc, info) == (if doc.repository.events.Str? then Some(doc.repository.events.s) else None)
    ensures doc.repository.Scalar? ==> RawUrl(rule, name, doc, info).None?
  {
  }

  /** The entry `newDependent` built from one satisfying version, or `None` where building it throws. */
  function EntryFor(rule: UrlRule, doc: RegistryDoc, v: VersionEntry): (r: Option<Entry>)
    ensures r.Some? ==> !r.value.done && r.value.resolution.Some?
    ensures r.Some? ==> r.value.resolution.value.name == doc.name && r.value.resolution.value.version == v.version
    ensures r.None? <==> RawUrl(rule, doc.name, doc, v.info).None?
    ensures r.Some? ==> r.value.resolution.value.repository == Rewrite(RawUrl(rule, doc.name, doc, v.info).value)
    ensures r.Some? ==> r.value.resolution.value.gitHead == v.info.gitHead && r.value.resolution.value.main == v.info.main
  {
    match RawUrl(rule, doc.name, doc, v.info)
    case None => None
    case Some(url) => Some(Entry(false, Some(Resolution(doc.name, v.version, v.info.gitHead, Rewrite(url), v.info.main))))
  }

  /** The index of the last enumerated version satisfying `range`, if any. */
  function PickLast(versions: seq<VersionEntry>, range: Option<string>, sat: Satisfies): (r: Option<nat>)
    ensures r.Some? ==> r.value < |versions| && sat(versions[r.value].version, range)
    ensures r.Some? ==> forall j :: r.value < j < |versions| ==> !sat(versions[j].version, range)
    ensures r.None? <==> forall j :: 0 <= j < |versions| ==> !sat(versions[j].version, range)
    decreases |versions|
  {
    if |versions| == 0 then None
    else if sat(versions[|versions| - 1].version, range) then Some(|versions| - 1)
    else PickLast(versions[..|versions| - 1], range, sat)
  }

  /** Conversely, the last satisfying index is what `PickLast` finds. */
  lemma PickLastFindsLast(versions: seq<VersionEntry>, range: Option<string>, sat: Satisfies, k: nat)
    requires k < |versions| && sat(versions[k].version, range)
    requires forall j :: k < j < |versions| ==> !sat(versions[j].version, range)
    ensures PickLast(versions, range, sat) == Some(k)
  {
  }

  /**
   * The request callback's loop over `versions`, after its first `n` keys:
   * each satisfying version overwrites `newDependent`; `None` once building
   * an entry has thrown.
   */
  function ResolvePrefix(rule: UrlRule, sat: Satisfies, doc: RegistryDoc, deps: Deps, n: nat): (r: Option<Entry>)
    requires n <= |doc.versions|
    ensures r.Some? ==> !r.value.done
    ensures r.Some? && r.value.resolution.Some? ==> r.value.resolution.value.name == doc.name
    decreases n
  {
    if n == 0 then Some(Placeholder)
    else
      match ResolvePrefix(rule, sat, doc, deps, n - 1)
      case None => None
      case Some(newDependent) =>
        var v := doc.versions[n - 1];
        if sat(v.version, RangeOf(deps, doc.name)) then EntryFor(rule, doc, v) else Some(newDependent)
  }

  /** The entry a successful registry response stores under `doc.name`, or `None` when the callback throws. */
  function Resolve(rule: UrlRule, sat: Satisfies, doc: RegistryDoc, deps: Deps): (r: Option<Entry>)
    ensures r.Some? ==> !r.value.done
    ensures r.Some? && r.value.resolution.Some? ==> r.value.resolution.value.name == doc.name
    ensures |doc.versions| == 0 ==> r == Some(Placeholder)
  {
    ResolvePrefix(rule, sat, doc, deps, |doc.versions|)
  }

  /** The version at index `i` satisfies the range, but building its entry throws. */
  ghost predicate ThrowsAt(rule: UrlRule, sat: Satisfies, doc: RegistryDoc, deps: Deps, i: nat)
    requires i < |doc.versions|
  {
    sat(doc.versions[i].version, RangeOf(deps, doc.name)) && EntryFor(rule, doc, doc.versions[i]).None?
  }

  /** Some version among the first `n` satisfies the range but building its entry throws. */
  ghost predicate ThrowsBefore(rule: UrlRule, sat: Satisfies, doc: RegistryDoc, deps: Deps, n: nat)
    requires n <= |doc.versions|
  {
    exists i: nat :: i < n && ThrowsAt(rule, sat, doc, deps, i)
  }

  /** The entry of the last version among the first `n` that satisfies the range, or `{}` when none does. */
  function PickedEntry(rule: UrlRule, sat: Satisfies, doc: RegistryDoc, deps: Deps, n: nat): Option<Entry>
    requires n <= |doc.versions|
  {
    match PickLast(doc.versions[..n], RangeOf(deps, doc.name), sat)
    case None => Some(Placeholder)
    case Some(k) => EntryFor(rule, doc, doc.versions[k])
  }

  lemma {:induction false} ResolvePrefixIsLastSatisfying(rule: UrlRule, sat: Satisfies, doc: RegistryDoc, deps: Deps, n: nat)
    requires n <= |doc.versions|
    ensures ResolvePrefix(rule, sat, doc, deps, n).None? <==> ThrowsBefore(rule, sat, doc, deps, n)
    ensures ResolvePrefix(rule, sat, doc, deps, n).Some? ==> ResolvePrefix(rule, sat, doc, deps, n) == PickedEntry(rule, sat, doc, deps, n)
  {
    ResolvePrefixThrows(rule, sat, doc, deps, n);
    ResolvePrefixPicks(rule, sat, doc, deps, n);
  }

  /** The loop has thrown after `n` versions exactly when one of them satisfies the range and throws. */
  lemma {:induction false} ResolvePrefixThrows(rule: UrlRule, sat: Satisfies, doc: RegistryDoc, deps: Deps, n: nat)
    requires n <= |doc.versions|
    ensures ResolvePrefix(rule, sat, doc, deps, n).None? <==> ThrowsBefore(rule, sat, doc, deps, n)
    decreases n
  {
    if n > 0 {
      ResolvePrefixThrows(rule, sat, doc, deps, n - 1);
      ThrowsBeforeStep(rule, sat, doc, deps, n);
    }
  }

  /** Unless it has thrown, the loop holds the last satisfying version's entry, or `{}`. */
  lemma {:induction false} ResolvePrefixPicks(rule: UrlRule, sat: Satisfies, doc: RegistryDoc, deps: Deps, n: nat)
    requires n <= |doc.versions|
    ensures ResolvePrefix(rule, sat, doc, deps, n).Some? ==> ResolvePrefix(rule, sat, doc, deps, n) == PickedEntry(rule, sat, doc, deps, n)
    decreases n
  {
    if n > 0 {
      ResolvePrefixPicks(rule, sat, doc, deps, n - 1);
      PickedEntryStep(rule, sat, doc, deps, n);
      var v := doc.versions[n - 1];
      var prev := ResolvePrefix(rule, sat, doc, deps, n - 1);
      if prev.Some? {
        if sat(v.version, RangeOf(deps, doc.name)) {
          assert ResolvePrefix(rule, sat, doc, deps, n) == EntryFor(rule, doc, v);
        } else {
          assert ResolvePrefix(rule, sat, doc, deps, n) == prev;
        }
      }
    }
  }

  /** One more version: it becomes the pick when it satisfies the range, otherwise the pick stays. */
  lemma PickedEntryStep(rule: UrlRule, sat: Satisfies, doc: RegistryDoc, deps: Deps, n: nat)
    requires 0 < n <= |doc.versions|
    ensures PickedEntry(rule, sat, doc, deps, n) ==
      if sat(doc.versions[n - 1].version, RangeOf(deps, doc.name)) then EntryFor(rule, doc, doc.versions[n - 1])
      else PickedEntry(rule, sat, doc, deps, n - 1)
  {
    var range := RangeOf(deps, doc.name);
    PickLastPrefixStep(doc.versions, range, sat, n);
    if sat(doc.versions[n - 1].version, range) {
      assert PickLast(doc.versions[..n], range, sat) == Some(n - 1);
    } else {
      assert PickLast(doc.versions[..n], range, sat) == PickLast(doc.versions[..n - 1], range, sat);
    }
  }

  /** Extending the prefix by one version adds a throw exactly when that version throws. */
  lemma ThrowsBeforeStep(rule: UrlRule, sat: Satisfies, doc: RegistryDoc, deps: Deps, n: nat)
    requires 0 < n <= |doc.versions|
    ensures ThrowsBefore(rule, sat, doc, deps, n) <==>
      ThrowsBefore(rule, sat, doc, deps, n - 1) || ThrowsAt(rule, sat, doc, deps, n - 1)
  {
    if ThrowsBefore(rule, sat, doc, deps, n) && !ThrowsBefore(rule, sat, doc, deps, n - 1) {
      var i: nat :| i < n && ThrowsAt(rule, sat, doc, deps, i);
      assert i == n - 1;
    }
    if ThrowsBefore(rule, sat, doc, deps, n - 1) {
      var i: nat :| i < n - 1 && ThrowsAt(rule, sat, doc, deps, i);
      assert i < n;
    }
  }

  /** `PickLast` over a prefix one longer: the new last version if it satisfies, else the shorter prefix's pick. */
  lemma PickLastPrefixStep(versions: seq<VersionEntry>, range: Option<string>, sat: Satisfies, n: nat)
    requires 0 < n <= |versions|
    ensures PickLast(versions[..n], range, sat) ==
      if sat(versions[n - 1].version, range) then Some(n - 1) else PickLast(versions[..n - 1], range, sat)
  {
    assert versions[..n][..n - 1] == versions[..n - 1];
    assert versions[..n][n - 1] == versions[n - 1];
  }

  /**
   * What a successful response stores: the entry of the LAST enumerated
   * version satisfying the range declared for the registry-reported name,
   * `{}` when none does, and nothing at all (the callback throws) when any
   * satisfying version lacks a usable URL.
   */
  lemma ResolveIsLastSatisfying(rule: UrlRule, sat: Satisfies, doc: RegistryDoc, deps: Deps)
    ensures Resolve(rule, sat, doc, deps).None? <==> ThrowsBefore(rule, sat, doc, deps, |doc.versions|)
    ensures Resolve(rule, sat, doc, deps).Some? ==>
      Resolve(rule, sat, doc, deps) ==
        match PickLast(doc.versions, RangeOf(deps, doc.name), sat)
        case None => Some(Placeholder)
        case Some(k) => EntryFor(rule, doc, doc.versions[k])
    ensures Resolve(rule, sat, doc, deps).Some? ==> !Resolve(rule, sat, doc, deps).value.done
  {
    ResolvePrefixIsLastSatisfying(rule, sat, doc, deps, |doc.versions|);
    assert doc.versions[..|doc.versions|] == doc.versions;
  }

  /**
   * The pick depends on enumeration order: the same two satisfying versions
   * listed in the opposite order yield different entries.
   */
  lemma PickDependsOnOrder(sat: Satisfies, range: Option<string>, a: VersionEntry, b: VersionEntry)
    requires sat(a.version, range) && sat(b.version, range)
    ensures PickLast([a, b], range, sat) == Some(1)
    ensures PickLast([b, a], range, sat) == Some(1)
    ensures [a, b][1] == b && [b, a][1] == a
  {
  }

  /** When versions are enumerated in ascending order, the last satisfying one is also the highest. */
  lemma LastIsHighestWhenAscending(versions: seq<VersionEntry>, range: Option<string>, sat: Satisfies, less: (string, string) -> bool)
    requires forall i, j :: 0 <= i < j < |versions| ==> less(versions[i].version, versions[j].version)
    requires PickLast(versions, range, sat).Some?
    ensures var k := PickLast(versions, range, sat).value;
      forall j :: 0 <= j < |versions| && j != k && sat(versions[j].version, range) ==> less(versions[j].version, versions[k].version)
  {
  }
}

=== FILE: resolver.dfy ===
/**
 * The resolver as a sequential, event-driven state machine. Each asynchronous
 * callback of the source is an event; any order of events stands for one
 * interleaving of the callbacks. An event whose request or fetch is not in
 * flight changes nothing.
 */
module Resolver {
  import opened Wrappers
  import opened Text
  import opened Manifest
  import opened DependencyTree
  import opened Registry

  /** The parts that differ between entry points, and `semver.satisfies`. */
  datatype Config = Config(rule: UrlRule, sat: Satisfies)

  /**
   * `tree` and how often `buildBundle` has been called, plus the bookkeeping of what
   * is in flight: registry requests by requested name (with the dependencies
   * object their callback closes over), clone chains by registry-reported
   * name, and every registry request ever dispatched.
   */
  datatype State = State(
    tree: Tree,
    awaitingRegistry: map<string, Deps>,
    awaitingFetch: multiset<string>,
    requested: multiset<string>,
    bundles: nat)

  /** The `request` callback's arguments: a transport error, or a status code with a body `JSON.parse` may reject. */
  datatype Response = TransportError | Http(status: int, body: Option<RegistryDoc>)

  /** How the clone / `getCommit` / hard `reset` chain settled. */
  datatype FetchOutcome = Cloned | GitError(message: string)

  datatype Event =
    | RegistryReply(dep: string, response: Response)
    | FetchSettled(name: string, outcome: FetchOutcome, manifests: Manifests)

  const ObjectNotFound := "Object not found"

  /** The outcomes after which `next` runs: success, or an error whose message mentions a missing object. */
  predicate Proceeds(o: FetchOutcome) {
    o.Cloned? || Contains(o.message, ObjectNotFound)
  }

  const Empty := State(map[], map[], multiset{}, multiset{}, 0)

  /**
   * `getDependencies(deps)`: each declared name that is not yet a key gets the
   * placeholder and one registry request; names already present are skipped.
   */
  function GetDependencies(s: State, deps: Deps): (s': State)
    ensures s'.tree == Insert(s.tree, deps)
    ensures forall n :: n in deps && n !in s.tree ==> n in s'.awaitingRegistry && s'.awaitingRegistry[n] == deps
    ensures forall n :: n in s'.awaitingRegistry <==> n in s.awaitingRegistry || (n in deps && n !in s.tree)
    ensures forall n :: n in s.awaitingRegistry && !(n in deps && n !in s.tree) ==> s'.awaitingRegistry[n] == s.awaitingRegistry[n]
    ensures forall n :: s'.requested[n] == s.requested[n] + (if n in deps && n !in s.tree then 1 else 0)
    ensures s'.awaitingFetch == s.awaitingFetch && s'.bundles == s.bundles
  {
    var unseen := deps.Keys - s.tree.Keys;
    s.(tree := Insert(s.tree, deps),
       awaitingRegistry := Dispatch(s.awaitingRegistry, unseen, deps),
       requested := s.requested + multiset(unseen))
  }

  /** One registry request per name in `names`, each closing over `deps`. */
  function Dispatch(pending: map<string, Deps>, names: set<string>, deps: Deps): (r: map<string, Deps>)
    ensures r.Keys == pending.Keys + names
    ensures forall n :: n in names ==> r[n] == deps
    ensures forall n :: n in pending && n !in names ==> r[n] == pending[n]
  {
    pending + map n | n in names :: deps
  }

  /** The startup call `getDependencies(cortexJson.dependencies)` on an empty tree. */
  function Init(root: Deps): (s: State)
    ensures s.tree.Keys == root.Keys && s.awaitingRegistry.Keys == root.Keys
    ensures forall n :: n in root ==> s.tree[n] == Placeholder && s.requested[n] == 1
    ensures s.bundles == 0 && s.awaitingFetch == multiset{}
  {
    GetDependencies(Empty, root)
  }

  /** The tree with `name`'s entry marked done (`tree[name].done = true`). */
  function Mark(t: Tree, name: string): (r: Tree)
    requires name in t
    ensures r.Keys == t.Keys && r[name].done && r[name].resolution == t[name].resolution
    ensures forall n :: n in t && n != name ==> r[n] == t[n]
  {
    t[name := t[name].(done := true)]
  }

  /**
   * `next(name, projectFolder)`: mark the entry done, call `buildBundle` if
   * `checkDone()` holds at that moment, then discover the children. Setting
   * `done` on a missing entry throws, and so does `buildBundle` when some
   * entry has no string `main`; the call sits outside `next`'s `try`, so the
   * children are then never discovered. After a successful clone either
   * throw is caught by the fetch chain's `catch`, which only logs it; after
   * an `Object not found` error `next` already runs inside that `catch`, so
   * the throw rejects the chain's last promise and nothing handles it.
   */
  function Next(s: State, name: string, m: Manifests): (s': State)
    ensures name in s.tree ==> name in s'.tree && s'.tree[name].done
    ensures name !in s.tree ==> s' == s
    ensures s.tree.Keys <= s'.tree.Keys
    ensures name in s.tree ==> s'.bundles == s.bundles + (if AllDone(Mark(s.tree, name)) then 1 else 0)
    ensures name in s.tree ==> forall n :: n in s.tree && n != name ==> s'.tree[n] == s.tree[n]
    ensures name in s.tree && !(AllDone(Mark(s.tree, name)) && !MainsAreStrings(Mark(s.tree, name))) ==>
      && ChildDependencies(m).Keys <= s'.tree.Keys
      && forall c :: c in ChildDependencies(m) && c !in s.tree ==> s'.tree[c] == Placeholder && c in s'.awaitingRegistry
  {
    if name !in s.tree then s
    else
      var marked := Mark(s.tree, name);
      var checked := s.(tree := marked, bundles := s.bundles + (if AllDone(marked) then 1 else 0));
      if AllDone(marked) && !MainsAreStrings(marked) then checked
      else GetDependencies(checked, ChildDependencies(m))
  }

  /**
   * The request callback for `dep`: anything but a 200 with a parsable body
   * leaves the tree alone; otherwise the resolved entry is stored under the
   * registry-reported name and its clone is started, unless building the entry
   * threw.
   */
  function OnRegistryReply(cfg: Config, s: State, deps: Deps, response: Response): (r: State)
    ensures s.tree.Keys <= r.tree.Keys
    ensures r.awaitingRegistry == s.awaitingRegistry && r.requested == s.requested && r.bundles == s.bundles
    ensures forall n :: n in s.tree && (response.Http? && response.body.Some? ==> n != response.body.value.name) ==> r.tree[n] == s.tree[n]
    ensures !(response.Http? && response.status == 200 && response.body.Some?) ==> r == s
    ensures response.Http? && response.status == 200 && response.body.Some? ==>
      var doc := response.body.value;
      var e := Resolve(cfg.rule, cfg.sat, doc, deps);
      && (e.None? ==> r == s)
      && (e.Some? ==> r.tree == s.tree[doc.name := e.value] && r.awaitingFetch == s.awaitingFetch + multiset{doc.name})
  {
    if !response.Http? || response.status != 200 || response.body.None? then s
    else
      var doc := response.body.value;
      match Resolve(cfg.rule, cfg.sat, doc, deps)
      case None => s
      case Some(entry) =>
        s.(tree := s.tree[doc.name := entry], awaitingFetch := s.awaitingFetch + multiset{doc.name})
  }

  function Step(cfg: Config, s: State, e: Event): (s': State)
    ensures s.tree.Keys <= s'.tree.Keys
    ensures s.bundles <= s'.bundles <= s.bundles + 1
    ensures forall n :: s.requested[n] <= s'.requested[n]
  {
    match e
    case RegistryReply(dep, response) =>
      if dep !in s.awaitingRegistry then s
      else OnRegistryReply(cfg, s.(awaitingRegistry := s.awaitingRegistry - {dep}), s.awaitingRegistry[dep], response)
    case FetchSettled(name, outcome, manifests) =>
      if name !in s.awaitingFetch then s
      else
        var s1 := s.(awaitingFetch := s.awaitingFetch - multiset{name});
        if Proceeds(outcome) then Next(s1, name, manifests) else s1
  }

  /** A settled clone that proceeds hands over to `next`. */
  lemma SettleThenNext(cfg: Config, s: State, name: string, outcome: FetchOutcome, m: Manifests, settled: State)
    requires name in s.awaitingFetch && Proceeds(outcome)
    requires settled == s.(awaitingFetch := s.awaitingFetch - multiset{name})
    ensures Step(cfg, s, FetchSettled(name, outcome, m)) == Next(settled, name, m)
  {
  }

  /** `next` on a present entry whose bundle (if any) does not throw: mark, check, then discover the children. */
  lemma NextThenDiscover(s: State, name: string, m: Manifests, marked: State, children: Deps)
    requires name in s.tree
    requires AllDone(Mark(s.tree, name)) ==> MainsAreStrings(Mark(s.tree, name))
    requires marked == s.(tree := Mark(s.tree, name), bundles := s.bundles + (if AllDone(Mark(s.tree, name)) then 1 else 0))
    requires children == ChildDependencies(m)
    ensures Next(s, name, m) == GetDependencies(marked, children)
  {
  }

  /** The state after a sequence of events, i.e. after one interleaving of callbacks. */
  function Run(cfg: Config, s: State, events: seq<Event>): (r: State)
    ensures s.tree.Keys <= r.tree.Keys
    ensures s.bundles <= r.bundles <= s.bundles + |events|
    decreases |events|
  {
    if |events| == 0 then s else Run(cfg, Step(cfg, s, events[0]), events[1..])
  }

  // ---------------------------------------------------------------------------
  // Invariants that hold whatever the registry answers.

  ghost predicate Consistent(s: State) {
    && (forall n :: s.requested[n] <= 1)
    && (forall n :: n in s.requested ==> n in s.tree)
    && (forall n :: n in s.awaitingRegistry ==> n in s.requested)
    && (forall n :: n in s.awaitingFetch ==> n in s.tree)
  }

  lemma GetDependenciesConsistent(s: State, deps: Deps)
    requires Consistent(s)
    ensures Consistent(GetDependencies(s, deps))
  {
  }

  lemma {:induction false} StepConsistent(cfg: Config, s: State, e: Event)
    requires Consistent(s)
    ensures Consistent(Step(cfg, s, e))
  {
    match e
    case RegistryReply(dep, response) =>
    case FetchSettled(name, outcome, manifests) =>
      if name in s.awaitingFetch {
        var s1 := s.(awaitingFetch := s.awaitingFetch - multiset{name});
        if Proceeds(outcome) {
          NextConsistent(s1, name, manifests);
        }
      }
  }

  lemma NextConsistent(s: State, name: string, m: Manifests)
    requires Consistent(s)
    ensures Consistent(Next(s, name, m))
  {
    if name in s.tree {
      var marked := Mark(s.tree, name);
      var s2 := s.(tree := marked, bundles := s.bundles + (if AllDone(marked) then 1 else 0));
      if !(AllDone(marked) && !MainsAreStrings(marked)) {
        GetDependenciesConsistent(s2, ChildDependencies(m));
      }
    }
  }

  lemma {:induction false} RunConsistent(cfg: Config, s: State, events: seq<Event>)
    requires Consistent(s)
    ensures Consistent(Run(cfg, s, events))
    decreases |events|
  {
    if |events| > 0 {
      StepConsistent(cfg, s, events[0]);
      RunConsistent(cfg, Step(cfg, s, events[0]), events[1..]);
    }
  }

  /** Every name is requested from the registry at most once per run, whatever the interleaving. */
  lemma AtMostOneRequestPerName(cfg: Config, root: Deps, events: seq<Event>)
    ensures forall n :: Run(cfg, Init(root), events).requested[n] <= 1
    ensures forall n :: n in Run(cfg, Init(root), events).requested ==> n in Run(cfg, Init(root), events).tree
  {
    RunConsistent(cfg, Init(root), events);
  }

  // ---------------------------------------------------------------------------
  // Completion, for a registry that reports the name it was asked for.

  /** The registry reports the requested name in every parsable response. */
  predicate Echoes(e: Event) {
    e.RegistryReply? && e.response.Http? && e.response.body.Some? ==> e.response.body.value.name == e.dep
  }

  ghost predicate EchoingTrace(events: seq<Event>) {
    forall i :: 0 <= i < |events| ==> Echoes(events[i])
  }

  /** Nothing in flight is done: a pending request's placeholder and a cloning entry are both not done. */
  ghost predicate InFlightNotDone(s: State) {
    && Consistent(s)
    && (forall n :: n in s.awaitingRegistry ==> s.awaitingFetch[n] == 0 && n in s.tree && !s.tree[n].done)
    && (forall n :: n in s.awaitingFetch ==> s.awaitingFetch[n] == 1 && n in s.tree && !s.tree[n].done)
  }

  lemma InitInFlightNotDone(root: Deps)
    ensures InFlightNotDone(Init(root))
  {
  }

  lemma GetDependenciesInFlightNotDone(s: State, deps: Deps)
    requires InFlightNotDone(s)
    ensures InFlightNotDone(GetDependencies(s, deps))
  {
    GetDependenciesConsistent(s, deps);
  }

  lemma ReplyInFlightNotDone(cfg: Config, s: State, dep: string, response: Response)
    requires InFlightNotDone(s) && Echoes(RegistryReply(dep, response))
    requires dep in s.awaitingRegistry
    ensures InFlightNotDone(Step(cfg, s, RegistryReply(dep, response)))
  {
    var s1 := s.(awaitingRegistry := s.awaitingRegistry - {dep});
    assert InFlightNotDone(s1);
  }

  /** Marking a name that is no longer in flight keeps every in-flight entry not done. */
  lemma MarkInFlightNotDone(s: State, name: string)
    requires InFlightNotDone(s) && name in s.tree
    requires name !in s.awaitingRegistry && name !in s.awaitingFetch
    ensures InFlightNotDone(s.(tree := Mark(s.tree, name)))
  {
  }

  /** Settling a clone takes its name out of flight. */
  lemma SettleInFlightNotDone(s: State, name: string)
    requires InFlightNotDone(s) && name in s.awaitingFetch
    ensures var s1 := s.(awaitingFetch := s.awaitingFetch - multiset{name});
      InFlightNotDone(s1) && name in s1.tree && name !in s1.awaitingRegistry && name !in s1.awaitingFetch
  {
    var s1 := s.(awaitingFetch := s.awaitingFetch - multiset{name});
    assert s1.awaitingFetch[name] == 0;
    forall n | n in s1.awaitingFetch
      ensures s1.awaitingFetch[n] == 1 && n in s1.tree && !s1.tree[n].done
    {
      assert n != name;
      assert s1.awaitingFetch[n] == s.awaitingFetch[n];
    }
    forall n | n in s1.awaitingRegistry
      ensures s1.awaitingFetch[n] == 0
    {
      assert s1.awaitingFetch[n] <= s.awaitingFetch[n];
    }
  }

  lemma NextInFlightNotDone(s: State, name: string, manifests: Manifests)
    requires InFlightNotDone(s) && name in s.tree
    requires name !in s.awaitingRegistry && name !in s.awaitingFetch
    ensures InFlightNotDone(Next(s, name, manifests))
  {
    var marked := Mark(s.tree, name);
    MarkInFlightNotDone(s, name);
    var s2 := s.(tree := marked, bundles := s.bundles + (if AllDone(marked) then 1 else 0));
    assert InFlightNotDone(s2) by {
      assert InFlightNotDone(s.(tree := marked));
    }
    if !(AllDone(marked) && !MainsAreStrings(marked)) {
      GetDependenciesInFlightNotDone(s2, ChildDependencies(manifests));
    }
  }

  lemma FetchInFlightNotDone(cfg: Config, s: State, name: string, outcome: FetchOutcome, manifests: Manifests)
    requires InFlightNotDone(s) && name in s.awaitingFetch
    ensures InFlightNotDone(Step(cfg, s, FetchSettled(name, outcome, manifests)))
  {
    var s1 := s.(awaitingFetch := s.awaitingFetch - multiset{name});
    SettleInFlightNotDone(s, name);
    var s' := Step(cfg, s, FetchSettled(name, outcome, manifests));
    if Proceeds(outcome) {
      assert s' == Next(s1, name, manifests);
      NextInFlightNotDone(s1, name, manifests);
    } else {
      assert s' == s1;
    }
  }

  lemma {:induction false} StepInFlightNotDone(cfg: Config, s: State, e: Event)
    requires InFlightNotDone(s) && Echoes(e)
    ensures InFlightNotDone(Step(cfg, s, e))
  {
    match e
    case RegistryReply(dep, response) =>
      if dep in s.awaitingRegistry {
        ReplyInFlightNotDone(cfg, s, dep, response);
      }
    case FetchSettled(name, outcome, manifests) =>
      if name in s.awaitingFetch {
        FetchInFlightNotDone(cfg, s, name, outcome, manifests);
      }
  }

  lemma {:induction false} RunInFlightNotDone(cfg: Config, s: State, events: seq<Event>)
    requires InFlightNotDone(s) && EchoingTrace(events)
    ensures InFlightNotDone(Run(cfg, s, events))
    decreases |events|
  {
    if |events| > 0 {
      StepInFlightNotDone(cfg, s, events[0]);
      RunInFlightNotDone(cfg, Step(cfg, s, events[0]), events[1..]);
    }
  }

  /** When every entry is done, no registry request and no clone is in flight. */
  lemma QuiescentWhenAllDone(s: State)
    requires InFlightNotDone(s) && AllDone(s.tree)
    ensures s.awaitingRegistry == map[] && s.awaitingFetch == multiset{}
  {
    forall n ensures s.awaitingFetch[n] == 0 {
    }
  }

  /** The only event that can fire `buildBundle` is a clone that proceeds to `next` and completes the tree. */
  lemma BundleFiresOnlyFromNext(cfg: Config, s: State, e: Event)
    requires Step(cfg, s, e).bundles != s.bundles
    ensures e.FetchSettled? && Proceeds(e.outcome) && e.name in s.awaitingFetch
    ensures e.name in s.tree && AllDone(Mark(s.tree, e.name))
  {
    var s' := Step(cfg, s, e);
    match e
    case RegistryReply(dep, response) =>
    case FetchSettled(name, outcome, manifests) =>
      var s1 := s.(awaitingFetch := s.awaitingFetch - multiset{name});
      assert s' == Next(s1, name, manifests);
  }

  /** Marking one cloning entry leaves every other in-flight entry not done. */
  lemma MarkLeavesOthersInFlight(s: State, name: string, n: string)
    requires InFlightNotDone(s) && name in s.awaitingFetch
    requires n in s.awaitingRegistry || (n in s.awaitingFetch && n != name)
    ensures n in Mark(s.tree, name) && !Mark(s.tree, name)[n].done
  {
  }

  /** If marking a cloning entry completes the tree, that clone was the only thing in flight. */
  lemma MarkCompletesOnlyWhenQuiescent(s: State, name: string)
    requires InFlightNotDone(s) && name in s.awaitingFetch
    requires AllDone(Mark(s.tree, name))
    ensures s.awaitingRegistry == map[] && s.awaitingFetch == multiset{name}
  {
    if s.awaitingRegistry != map[] {
      var n :| n in s.awaitingRegistry;
      MarkLeavesOthersInFlight(s, name, n);
    }
    forall n ensures s.awaitingFetch[n] == multiset{name}[n] {
      if n != name && n in s.awaitingFetch {
        MarkLeavesOthersInFlight(s, name, n);
      }
    }
  }

  /**
   * `buildBundle` fires only from `next`, and only when nothing else is in
   * flight: no registry request, and no clone but the one that just settled.
   */
  lemma BundleFiresOnlyWhenQuiescent(cfg: Config, s: State, e: Event)
    requires InFlightNotDone(s)
    requires Step(cfg, s, e).bundles != s.bundles
    ensures e.FetchSettled? && Proceeds(e.outcome)
    ensures s.awaitingRegistry == map[] && s.awaitingFetch == multiset{e.name}
  {
    BundleFiresOnlyFromNext(cfg, s, e);
    MarkCompletesOnlyWhenQuiescent(s, e.name);
  }

  /** Over any echoing run from the root manifest, a done tree means nothing is in flight. */
  lemma CompletionMeansQuiescent(cfg: Config, root: Deps, events: seq<Event>)
    requires EchoingTrace(events)
    requires AllDone(Run(cfg, Init(root), events).tree)
    ensures Run(cfg, Init(root), events).awaitingRegistry == map[]
    ensures Run(cfg, Init(root), events).awaitingFetch == multiset{}
  {
    InitInFlightNotDone(root);
    RunInFlightNotDone(cfg, Init(root), events);
    QuiescentWhenAllDone(Run(cfg, Init(root), events));
  }

  // ---------------------------------------------------------------------------
  // What `next` and the fetch outcome do.

  /**
   * `checkDone` runs before the children are inserted, with no once-only
   * guard: whenever marking `name` leaves every entry done the bundle fires,
   * however often it fired before, even if the package declares a child that
   * is not yet in the tree and so leaves the tree incomplete right after.
   */
  lemma CompletionCheckedBeforeChildren(s: State, name: string, m: Manifests)
    requires name in s.tree && AllDone(Mark(s.tree, name))
    ensures Next(s, name, m).bundles == s.bundles + 1
    ensures MainsAreStrings(Mark(s.tree, name)) && (exists n :: n in ChildDependencies(m) && n !in s.tree) ==>
      !AllDone(Next(s, name, m).tree)
  {
    if MainsAreStrings(Mark(s.tree, name)) && exists n :: n in ChildDependencies(m) && n !in s.tree {
      var n :| n in ChildDependencies(m) && n !in s.tree;
      assert !Next(s, name, m).tree[n].done;
    }
  }

  /**
   * When `buildBundle` throws because some entry has no string `main`, `next`
   * stops before discovering the children: the tree is only marked, no
   * request is made, and it stays done.
   */
  lemma FailedBundleSkipsChildren(s: State, name: string, m: Manifests)
    requires name in s.tree && AllDone(Mark(s.tree, name)) && !MainsAreStrings(Mark(s.tree, name))
    ensures Next(s, name, m).tree == Mark(s.tree, name) && AllDone(Next(s, name, m).tree)
    ensures Next(s, name, m).awaitingRegistry == s.awaitingRegistry && Next(s, name, m).requested == s.requested
    ensures Next(s, name, m).bundles == s.bundles + 1
  {
  }

  /** An error whose message mentions `Object not found` is treated exactly like a successful clone. */
  lemma ObjectNotFoundActsAsSuccess(cfg: Config, s: State, name: string, message: string, m: Manifests)
    requires Contains(message, ObjectNotFound)
    ensures Step(cfg, s, FetchSettled(name, GitError(message), m)) == Step(cfg, s, FetchSettled(name, Cloned, m))
  {
  }

  /** Any other git error leaves the entry as it was and discovers nothing from it. */
  lemma OtherGitErrorDiscoversNothing(cfg: Config, s: State, name: string, message: string, m: Manifests)
    requires name in s.awaitingFetch
    requires !Contains(message, ObjectNotFound)
    ensures var s' := Step(cfg, s, FetchSettled(name, GitError(message), m));
      && s'.tree == s.tree && s'.bundles == s.bundles
      && s'.awaitingRegistry == s.awaitingRegistry && s'.requested == s.requested
      && s'.awaitingFetch == s.awaitingFetch - multiset{name}
  {
  }

  /** A transport error, a non-200 status or an unparsable body leaves the placeholder in place. */
  lemma FailedLookupLeavesPlaceholder(cfg: Config, s: State, dep: string, response: Response)
    requires dep in s.awaitingRegistry
    requires !response.Http? || response.status != 200 || response.body.None?
    ensures Step(cfg, s, RegistryReply(dep, response)).tree == s.tree
    ensures Step(cfg, s, RegistryReply(dep, response)).awaitingRegistry == s.awaitingRegistry - {dep}
    ensures Step(cfg, s, RegistryReply(dep, response)).awaitingFetch == s.awaitingFetch
  {
  }

  /** With no request and no clone in flight, every event is ignored, whatever the registry reports. */
  lemma {:induction false} IdleRunUnchanged(cfg: Config, s: State, events: seq<Event>)
    requires s.awaitingRegistry == map[] && s.awaitingFetch == multiset{}
    ensures Run(cfg, s, events) == s
    decreases |events|
  {
    if |events| > 0 {
      assert Step(cfg, s, events[0]) == s;
      IdleRunUnchanged(cfg, s, events[1..]);
    }
  }

  /** A reply reporting another name stores its entry under that name, never under the requested one. */
  lemma MismatchedNameLeavesRequestedEntry(cfg: Config, s: State, dep: string, status: int, doc: RegistryDoc)
    requires dep in s.awaitingRegistry && dep in s.tree && doc.name != dep
    ensures Step(cfg, s, RegistryReply(dep, Http(status, Some(doc)))).tree[dep] == s.tree[dep]
  {
  }

  /**
   * A 200 reply for a pending request stores, under the reported name, the
   * entry of the last version satisfying the range that the requesting
   * `dependencies` object gives that name (`{}` when none does), and starts
   * its clone; when building that entry throws, only the request ends.
   */
  lemma ReplyStoresLastSatisfying(cfg: Config, s: State, dep: string, doc: RegistryDoc)
    requires dep in s.awaitingRegistry
    ensures var deps := s.awaitingRegistry[dep];
      var s' := Step(cfg, s, RegistryReply(dep, Http(200, Some(doc))));
      && s'.awaitingRegistry == s.awaitingRegistry - {dep}
      && (ThrowsBefore(cfg.rule, cfg.sat, doc, deps, |doc.versions|) ==>
            s'.tree == s.tree && s'.awaitingFetch == s.awaitingFetch)
      && (!ThrowsBefore(cfg.rule, cfg.sat, doc, deps, |doc.versions|) ==>
            && doc.name in s'.tree
            && (forall n :: n in s.tree && n != doc.name ==> s'.tree[n] == s.tree[n])
            && s'.awaitingFetch == s.awaitingFetch + multiset{doc.name}
            && Some(s'.tree[doc.name]) ==
                 match PickLast(doc.versions, RangeOf(deps, doc.name), cfg.sat)
                 case None => Some(Placeholder)
                 case Some(k) => EntryFor(cfg.rule, doc, doc.versions[k]))
  {
    ResolveIsLastSatisfying(cfg.rule, cfg.sat, doc, s.awaitingRegistry[dep]);
  }

  // ---------------------------------------------------------------------------
  // A lookup that fails blocks completion for good.

  /** `n` has an entry that is not done, and nothing in flight can ever change it. */
  ghost predicate Stuck(s: State, n: string) {
    n in s.tree && !s.tree[n].done && n !in s.awaitingRegistry && n !in s.awaitingFetch
  }

  lemma {:induction false} StepKeepsStuck(cfg: Config, s: State, e: Event, n: string)
    requires InFlightNotDone(s) && Echoes(e) && Stuck(s, n)
    ensures Stuck(Step(cfg, s, e), n)
    ensures Step(cfg, s, e).bundles == s.bundles
  {
    match e
    case RegistryReply(dep, response) =>
    case FetchSettled(name, outcome, manifests) =>
      if name in s.awaitingFetch && Proceeds(outcome) {
        var s1 := s.(awaitingFetch := s.awaitingFetch - multiset{name});
        assert Step(cfg, s, e) == Next(s1, name, manifests);
        NextKeepsStuck(s1, name, manifests, n);
      }
  }

  /** `next` for another package leaves a stuck entry alone, and cannot fire the bundle while it is not done. */
  lemma NextKeepsStuck(s: State, name: string, m: Manifests, n: string)
    requires Stuck(s, n) && n != name
    ensures Stuck(Next(s, name, m), n) && Next(s, name, m).bundles == s.bundles
  {
    if name in s.tree {
      var marked := Mark(s.tree, name);
      assert n in marked && !marked[n].done;
    }
  }

  /**
   * Once an entry is stuck (its registry lookup failed, or its clone failed
   * with another error), no echoing interleaving ever makes `checkDone` true
   * again, and `buildBundle` never fires again.
   */
  lemma {:induction false} StuckEntryBlocksCompletion(cfg: Config, s: State, events: seq<Event>, n: string)
    requires InFlightNotDone(s) && EchoingTrace(events) && Stuck(s, n)
    ensures Stuck(Run(cfg, s, events), n)
    ensures !AllDone(Run(cfg, s, events).tree)
    ensures Run(cfg, s, events).bundles == s.bundles
    decreases |events|
  {
    if |events| > 0 {
      StepKeepsStuck(cfg, s, events[0], n);
      StepInFlightNotDone(cfg, s, events[0]);
      StuckEntryBlocksCompletion(cfg, Step(cfg, s, events[0]), events[1..], n);
    }
  }
}

=== FILE: scenarios.dfy ===
/**
 * Concrete runs of the resolver: a root depending on `a`, whose snapshot
 * declares `b`; and a root whose only dependency's registry lookup fails.
 */
module Scenarios {
  import opened Wrappers
  import opened JsValues
  import opened Text
  import opened UrlRewrite
  import opened Manifest
  import opened DependencyTree
  import opened Registry
  import opened Resolver

  /** `semver.satisfies` stand-in for the ranges below: every version but `2.0.0` matches. */
  function NotMajorTwo(version: string, range: Option<string>): bool {
    version != "2.0.0"
  }

  const Cfg := Config(Application(map[], map[]), NotMajorTwo)
  const Info := VersionInfo(Absent, Str("c0ffee"), Str("index.js"))

  function Path(name: string): string {
    "github.com/x/" + name
  }

  function DocFor(name: string, versions: seq<string>): RegistryDoc {
    RegistryDoc(name, seq(|versions|, i requires 0 <= i < |versions| => VersionEntry(versions[i], Info)),
                Object(Str(GitScheme + Path(name)), Undefined))
  }

  function ReplyFor(name: string, versions: seq<string>): Event {
    RegistryReply(name, Http(200, Some(DocFor(name, versions))))
  }

  /** The entry a registry reply for a one-letter package stores once `version` is picked. */
  function ResolvedEntry(name: string, version: string): Entry {
    Entry(false, Some(Resolution(name, version, Str("c0ffee"), HttpScheme + Path(name), Str("index.js"))))
  }

  lemma EntryForScenario(name: string, versions: seq<string>, i: nat)
    requires |name| == 1 && i < |versions|
    ensures EntryFor(Cfg.rule, DocFor(name, versions), DocFor(name, versions).versions[i]) == Some(ResolvedEntry(name, versions[i]))
  {
    var doc := DocFor(name, versions);
    assert doc.versions[i] == VersionEntry(versions[i], Info);
    assert RawUrl(Cfg.rule, name, doc, Info) == Some(GitScheme + Path(name));
    assert Missing(Path(name), GithubSsh);
    RewriteGitScheme(Path(name));
  }

  lemma {:induction false} ReplyStoresEntry(s: State, name: string, versions: seq<string>, k: nat)
    requires |name| == 1
    requires name in s.awaitingRegistry
    requires k < |versions| && versions[k] != "2.0.0"
    requires forall j :: k < j < |versions| ==> versions[j] == "2.0.0"
    ensures Step(Cfg, s, ReplyFor(name, versions))
         == s.(tree := s.tree[name := ResolvedEntry(name, versions[k])],
               awaitingRegistry := s.awaitingRegistry - {name},
               awaitingFetch := s.awaitingFetch + multiset{name})
  {
    var doc := DocFor(name, versions);
    var deps := s.awaitingRegistry[name];
    var range := RangeOf(deps, doc.name);
    forall i | 0 <= i < |doc.versions| ensures EntryFor(Cfg.rule, doc, doc.versions[i]).Some? {
      EntryForScenario(name, versions, i);
    }
    ResolveIsLastSatisfying(Cfg.rule, Cfg.sat, doc, deps);
    forall j | k < j < |doc.versions| ensures !Cfg.sat(doc.versions[j].version, range) {
      assert doc.versions[j].version == versions[j];
    }
    assert doc.versions[k].version == versions[k];
    PickLastFindsLast(doc.versions, range, Cfg.sat, k);
    EntryForScenario(name, versions, k);
    assert Resolve(Cfg.rule, Cfg.sat, doc, deps) == Some(ResolvedEntry(name, versions[k]));
  }

  const Root: Deps := map["a" := "^1.0.0"]
  const ReplyA := ReplyFor("a", ["1.0.0", "1.2.0", "2.0.0"])
  const SettleA := FetchSettled("a", Cloned, Manifests(Some(CortexJson(Some(map["b" := "*"]))), None))
  const ReplyB := ReplyFor("b", ["0.1.0"])
  const SettleB := FetchSettled("b", Cloned, Manifests(None, None))

  const DoneA := ResolvedEntry("a", "1.2.0").(done := true)
  const DoneB := ResolvedEntry("b", "0.1.0").(done := true)

  /** After `a`'s reply: 1.2.0 is recorded and `a` is cloning. */
  const AfterReplyA := State(map["a" := ResolvedEntry("a", "1.2.0")], map[], multiset{"a"}, multiset{"a"}, 0)
  const SettledA := AfterReplyA.(awaitingFetch := multiset{})
  const MarkedA := State(map["a" := DoneA], map[], multiset{}, multiset{"a"}, 1)
  /** After `a`'s clone: the bundle has fired once and `b` is a fresh placeholder awaiting the registry. */
  const AfterSettleA := State(map["a" := DoneA, "b" := Placeholder], map["b" := map["b" := "*"]], multiset{}, multiset{"a", "b"}, 1)
  const AfterReplyB := State(map["a" := DoneA, "b" := ResolvedEntry("b", "0.1.0")], map[], multiset{"b"}, multiset{"a", "b"}, 1)
  const SettledB := AfterReplyB.(awaitingFetch := multiset{})
  const MarkedB := State(map["a" := DoneA, "b" := DoneB], map[], multiset{}, multiset{"a", "b"}, 2)
  /** After `b`'s clone: every entry is done and the bundle has fired a second time. */
  const AfterSettleB := MarkedB

  lemma StepReplyA()
    ensures Step(Cfg, Init(Root), ReplyA) == AfterReplyA
  {
    ReplyStoresEntry(Init(Root), "a", ["1.0.0", "1.2.0", "2.0.0"], 1);
    ReplyAFacts();
  }

  lemma ReplyAFacts()
    ensures Init(Root).tree["a" := ResolvedEntry("a", "1.2.0")] == AfterReplyA.tree
    ensures Init(Root).awaitingRegistry - {"a"} == AfterReplyA.awaitingRegistry
    ensures Init(Root).awaitingFetch + multiset{"a"} == AfterReplyA.awaitingFetch
    ensures Init(Root).requested == AfterReplyA.requested && Init(Root).bundles == 0
  {
  }

  lemma SettleAHandsOver()
    ensures Step(Cfg, AfterReplyA, SettleA) == Next(SettledA, "a", SettleA.manifests)
  {
    assert AfterReplyA.awaitingFetch - multiset{"a"} == multiset{};
    SettleThenNext(Cfg, AfterReplyA, "a", Cloned, SettleA.manifests, SettledA);
  }

  lemma NextAFiresBundle()
    ensures Next(SettledA, "a", SettleA.manifests) == GetDependencies(MarkedA, map["b" := "*"])
  {
    assert Mark(SettledA.tree, "a") == MarkedA.tree;
    assert AllDone(MarkedA.tree);
    assert MainsAreStrings(MarkedA.tree);
    NextThenDiscover(SettledA, "a", SettleA.manifests, MarkedA, map["b" := "*"]);
  }

  lemma DiscoverB()
    ensures GetDependencies(MarkedA, map["b" := "*"]) == AfterSettleA
  {
    var children: Deps := map["b" := "*"];
    assert children.Keys - MarkedA.tree.Keys == {"b"};
    assert Insert(MarkedA.tree, children) == AfterSettleA.tree;
    assert Dispatch(map[], {"b"}, children) == AfterSettleA.awaitingRegistry;
    assert multiset{"a"} + multiset({"b"}) == AfterSettleA.requested;
  }

  lemma ScenarioUrl()
    ensures HttpScheme + Path("a") == "http://github.com/x/a"
  {
  }

  lemma StepSettleA()
    ensures Step(Cfg, AfterReplyA, SettleA) == AfterSettleA
  {
    SettleAHandsOver();
    NextAFiresBundle();
    DiscoverB();
  }

  lemma StepReplyB()
    ensures Step(Cfg, AfterSettleA, ReplyB) == AfterReplyB
  {
    ReplyStoresEntry(AfterSettleA, "b", ["0.1.0"], 0);
    ReplyBFacts();
  }

  lemma ReplyBFacts()
    ensures AfterSettleA.tree["b" := ResolvedEntry("b", "0.1.0")] == AfterReplyB.tree
    ensures AfterSettleA.awaitingRegistry - {"b"} == AfterReplyB.awaitingRegistry
    ensures AfterSettleA.awaitingFetch + multiset{"b"} == AfterReplyB.awaitingFetch
  {
  }

  lemma SettleBHandsOver()
    ensures Step(Cfg, AfterReplyB, SettleB) == Next(SettledB, "b", SettleB.manifests)
  {
    assert AfterReplyB.awaitingFetch - multiset{"b"} == multiset{};
    SettleThenNext(Cfg, AfterReplyB, "b", Cloned, SettleB.manifests, SettledB);
  }

  lemma NextBFiresBundle()
    ensures Next(SettledB, "b", SettleB.manifests) == GetDependencies(MarkedB, map[])
  {
    assert Mark(SettledB.tree, "b") == MarkedB.tree;
    assert AllDone(MarkedB.tree);
    assert MainsAreStrings(MarkedB.tree);
    NextThenDiscover(SettledB, "b", SettleB.manifests, MarkedB, map[]);
  }

  lemma DiscoverNothing()
    ensures GetDependencies(MarkedB, map[]) == MarkedB
  {
    assert Insert(MarkedB.tree, map[]) == MarkedB.tree;
    assert Dispatch(map[], {}, map[]) == map[];
    assert multiset{"a", "b"} + multiset({}) == MarkedB.requested;
  }

  lemma StepSettleB()
    ensures Step(Cfg, AfterReplyB, SettleB) == AfterSettleB
  {
    SettleBHandsOver();
    NextBFiresBundle();
    DiscoverNothing();
  }

  /** Running events one after another is stepping through them in order. */
  lemma RunCons(cfg: Config, s: State, e: Event, rest: seq<Event>)
    ensures Run(cfg, s, [e] + rest) == Run(cfg, Step(cfg, s, e), rest)
  {
    assert ([e] + rest)[1..] == rest;
  }

  lemma RunFirstReply()
    ensures Run(Cfg, Init(Root), [ReplyA]) == AfterReplyA
  {
    StepReplyA();
    RunCons(Cfg, Init(Root), ReplyA, []);
  }

  lemma RunFirstClone()
    ensures Run(Cfg, Init(Root), [ReplyA, SettleA]) == AfterSettleA
  {
    StepReplyA();
    StepSettleA();
    RunCons(Cfg, AfterReplyA, SettleA, []);
    RunCons(Cfg, Init(Root), ReplyA, [SettleA]);
  }

  lemma RunTail()
    ensures Run(Cfg, AfterSettleA, [ReplyB, SettleB]) == AfterSettleB
  {
    StepReplyB();
    StepSettleB();
    RunCons(Cfg, AfterReplyB, SettleB, []);
    RunCons(Cfg, AfterSettleA, ReplyB, [SettleB]);
  }

  lemma RunWhole()
    ensures Run(Cfg, Init(Root), [ReplyA, SettleA, ReplyB, SettleB]) == AfterSettleB
  {
    StepReplyA();
    StepSettleA();
    RunTail();
    RunCons(Cfg, AfterReplyA, SettleA, [ReplyB, SettleB]);
    RunCons(Cfg, Init(Root), ReplyA, [SettleA, ReplyB, SettleB]);
  }

  /**
   * The root declares `a`; `a` publishes 1.0.0, 1.2.0 and 2.0.0 and the range
   * admits the first two, so 1.2.0 is picked and its `git://` URL is rewritten.
   */
  lemma FirstReplyPicksLastMatch()
    ensures var s := Run(Cfg, Init(Root), [ReplyA]);
      "a" in s.tree && s.tree["a"].resolution == Some(Resolution("a", "1.2.0", Str("c0ffee"), "http://github.com/x/a", Str("index.js")))
  {
    RunFirstReply();
    ScenarioUrl();
  }

  /**
   * `a`'s snapshot declares `b`. The bundle fires as soon as `a` is done,
   * before `b` is even in the tree.
   */
  lemma BundleFiresBeforeChild()
    ensures var s := Run(Cfg, Init(Root), [ReplyA, SettleA]);
      s.bundles == 1 && "b" in s.tree && s.tree["b"] == Placeholder && !AllDone(s.tree)
  {
    RunFirstClone();
    assert !AfterSettleA.tree["b"].done;
  }

  /** Once `b` is cloned every entry is done and the bundle has fired a second time. */
  lemma TwoPackageRunBundlesTwice()
    ensures var s := Run(Cfg, Init(Root), [ReplyA, SettleA, ReplyB, SettleB]);
      s.bundles == 2 && AllDone(s.tree) && s.tree.Keys == {"a", "b"}
  {
    RunWhole();
    FinalStateComplete();
  }

  lemma FinalStateComplete()
    ensures AfterSettleB.bundles == 2 && AllDone(AfterSettleB.tree) && AfterSettleB.tree.Keys == {"a", "b"}
  {
  }

  /**
   * The registry answers 500 for the root's only dependency `c`: its
   * placeholder stays, nothing is left in flight, so no later interleaving
   * (whatever the registry reports) ever completes the tree, and the bundle
   * never fires.
   */
  lemma FailedLookupNeverCompletes(events: seq<Event>)
    ensures var s := Run(Cfg, Step(Cfg, Init(map["c" := "*"]), RegistryReply("c", Http(500, None))), events);
      !AllDone(s.tree) && s.bundles == 0
  {
    var s0 := Init(map["c" := "*"]);
    var s1 := Step(Cfg, s0, RegistryReply("c", Http(500, None)));
    FailedLookupLeavesPlaceholder(Cfg, s0, "c", Http(500, None));
    assert s1.awaitingRegistry == map[];
    assert !s1.tree["c"].done;
    IdleRunUnchanged(Cfg, s1, events);
  }
}

=== FILE: text.dfy ===
/**
 * The two string operations the resolver relies on: `String.prototype.indexOf`
 * and `String.prototype.replace` with a string pattern, which replaces the
 * FIRST occurrence only.
 */
module Text {
  import opened Wrappers

  /** `pat` occurs in `s` starting at index `i`. */
  predicate OccursAt(s: string, pat: string, i: nat) {
    i + |pat| <= |s| && s[i..i + |pat|] == pat
  }

  /** `pat` occurs nowhere in `s`. */
  ghost predicate Missing(s: string, pat: string) {
    forall i: nat :: !OccursAt(s, pat, i)
  }

  /** `i` is where the leftmost occurrence of `pat` in `s` starts. */
  ghost predicate FirstOccurrence(s: string, pat: string, i: nat) {
    OccursAt(s, pat, i) && forall j: nat :: j < i ==> !OccursAt(s, pat, j)
  }

  /** The leftmost occurrence of `pat` at or after `from`, if any. */
  function IndexOfFrom(s: string, pat: string, from: nat): (r: Option<nat>)
    ensures r.Some? ==> from <= r.value && OccursAt(s, pat, r.value)
    ensures r.Some? ==> forall j: nat :: from <= j < r.value ==> !OccursAt(s, pat, j)
    ensures r.None? ==> forall j: nat :: from <= j ==> !OccursAt(s, pat, j)
    decreases |s| - from
  {
    if from + |pat| > |s| then None
    else if OccursAt(s, pat, from) then Some(from)
    else IndexOfFrom(s, pat, from + 1)
  }

  /** `s.indexOf(pat)`, with `None` for JavaScript's `-1`. */
  function IndexOf(s: string, pat: string): (r: Option<nat>)
    ensures r.None? <==> Missing(s, pat)
    ensures r.Some? ==> FirstOccurrence(s, pat, r.value)
  {
    IndexOfFrom(s, pat, 0)
  }

  /** `~s.indexOf(pat)` is truthy exactly when `pat` occurs in `s`. */
  predicate Contains(s: string, pat: string) {
    IndexOf(s, pat).Some?
  }

  /** `~s.indexOf(pat)` holds exactly when `pat` starts somewhere in `s`. */
  lemma ContainsIffOccurs(s: string, pat: string)
    ensures Contains(s, pat) <==> exists i: nat :: OccursAt(s, pat, i)
  {
  }

  /** `s.replace(pat, rep)` for a string pattern whose replacement holds no `$` pattern. */
  function ReplaceFirst(s: string, pat: string, rep: string): (r: string)
    ensures Missing(s, pat) ==> r == s
    ensures forall i: nat :: FirstOccurrence(s, pat, i) ==> r == s[..i] + rep + s[i + |pat|..]
  {
    match IndexOf(s, pat)
    case None => s
    case Some(i) => s[..i] + rep + s[i + |pat|..]
  }

  /** The leftmost occurrence is unique. */
  lemma FirstOccurrenceUnique(s: string, pat: string, i: nat, j: nat)
    requires FirstOccurrence(s, pat, i) && FirstOccurrence(s, pat, j)
    ensures i == j
  {
  }

  /** An occurrence in `pre + rest` at or beyond `|pre|` is an occurrence in `rest`. */
  lemma OccursInSuffix(pre: string, rest: string, pat: string, i: nat)
    requires |pre| <= i
    requires OccursAt(pre + rest, pat, i)
    ensures OccursAt(rest, pat, i - |pre|)
  {
    var s := pre + rest;
    assert s[i..i + |pat|] == rest[i - |pre|..i - |pre| + |pat|];
  }

  /** A pattern is at the very start of `pat + rest`, hence that is its first occurrence. */
  lemma LeadingOccurrence(pat: string, rest: string)
    ensures FirstOccurrence(pat + rest, pat, 0)
  {
    assert (pat + rest)[0..|pat|] == pat;
  }
}

=== FILE: tree.dfy ===
/**
 * The dependency tree: every package name discovered so far, mapped to its
 * entry. An entry starts as the placeholder `{}` and is later replaced by a
 * resolved record or marked done.
 */
module DependencyTree {
  import opened Wrappers
  import opened JsValues
  import opened Manifest

  /** What a registry response records for a package (the fields of `newDependent`). */
  datatype Resolution = Resolution(name: string, version: string, gitHead: Field, repository: string, main: Field)

  /**
   * A tree entry. `done` is the property `next` sets; `resolution` is `None`
   * for the empty object `{}`, which is what both a fresh placeholder and a
   * response with no satisfying version store.
   */
  datatype Entry = Entry(done: bool, resolution: Option<Resolution>)

  /** The empty object `{}`: its `done` property is `undefined`, hence falsy. */
  const Placeholder: Entry := Entry(false, None)

  type Tree = map<string, Entry>

  /** Every entry of the tree has `done` set; vacuously true of the empty tree. */
  predicate AllDone(t: Tree) {
    forall n | n in t :: t[n].done
  }

  /**
   * `buildBundle` joins every entry's `main` into a path, and `path.join`
   * throws a TypeError unless each is a string. So the bundle can only be
   * assembled when every entry is resolved and records a string `main`.
   */
  predicate MainsAreStrings(t: Tree) {
    forall n | n in t :: t[n].resolution.Some? && t[n].resolution.value.main.Str?
  }

  /** The names among `ks` whose entry is not done. */
  ghost function NotDone(t: Tree, ks: set<string>): set<string> {
    set n | n in ks && n in t && !t[n].done
  }

  /**
   * `checkDone`: count one per entry, take it back for each done entry, and
   * report whether the count ends at zero.
   */
  method CheckDone(t: Tree) returns (r: bool)
    ensures r <==> AllDone(t)
  {
    var count := 0;
    var unvisited := t.Keys;
    while unvisited != {}
      invariant unvisited <= t.Keys
      invariant count == |NotDone(t, t.Keys - unvisited)|
      decreases unvisited
    {
      var dep :| dep in unvisited;
      ghost var visited := t.Keys - unvisited;
      count := count + 1;
      if t[dep].done {
        count := count - 1;
        assert NotDone(t, visited + {dep}) == NotDone(t, visited);
      } else {
        assert NotDone(t, visited + {dep}) == NotDone(t, visited) + {dep};
      }
      unvisited := unvisited - {dep};
      assert t.Keys - unvisited == visited + {dep};
    }
    assert t.Keys - unvisited == t.Keys;
    r := count == 0;
    if !r {
      ghost var n :| n in NotDone(t, t.Keys);
    }
  }

  /**
   * The synchronous part of `getDependencies`: every declared name that is not
   * already a key gets the placeholder; every existing entry is left alone.
   */
  function Insert(t: Tree, deps: Deps): (t': Tree)
    ensures t'.Keys == t.Keys + deps.Keys
    ensures forall n :: n in t ==> t'[n] == t[n]
    ensures forall n :: n in deps && n !in t ==> t'[n] == Placeholder
  {
    t + map n | n in deps.Keys - t.Keys :: Placeholder
  }

  /** A newly inserted name keeps the tree from being done until its own entry is marked. */
  lemma InsertNewNameBlocksCompletion(t: Tree, deps: Deps, n: string)
    requires n in deps && n !in t
    ensures !AllDone(Insert(t, deps))
  {
    assert !Insert(t, deps)[n].done;
  }

  /** Inserting the same declarations twice changes nothing the second time. */
  lemma InsertIdempotent(t: Tree, deps: Deps)
    ensures Insert(Insert(t, deps), deps) == Insert(t, deps)
  {
  }

  /** Inserting only names that are already keys leaves the completion verdict alone. */
  lemma InsertKnownNamesKeepsVerdict(t: Tree, deps: Deps)
    requires deps.Keys <= t.Keys
    ensures AllDone(Insert(t, deps)) == AllDone(t)
  {
    assert Insert(t, deps) == t;
  }
}

=== FILE: url_rewrite.dfy ===
/**
 * The textual clone-URL rewrite both entry points apply: the first `git://` becomes
 * `http://`, then the first `git@github.com:` becomes `https://github.com/`, so that
 * cloning needs no credentials callback.
 */
module UrlRewrite {
  import opened Text

  const GitScheme := "git://"
  const HttpScheme := "http://"
  const GithubSsh := "git@github.com:"
  const GithubHttps := "https://github.com/"

  function Rewrite(url: string): (r: string)
    ensures Missing(url, GitScheme) && Missing(url, GithubSsh) ==> r == url
  {
    ReplaceFirst(ReplaceFirst(url, GitScheme, HttpScheme), GithubSsh, GithubHttps)
  }

  /** No occurrence of `git@github.com:` can start inside the `http://` prefix: it holds no `g`. */
  lemma NoSshInHttpPrefix(rest: string, i: nat)
    requires i < |HttpScheme|
    ensures !OccursAt(HttpScheme + rest, GithubSsh, i)
  {
    var s := HttpScheme + rest;
    if i + |GithubSsh| <= |s| {
      assert s[i..i + |GithubSsh|][0] == s[i] == HttpScheme[i];
      assert HttpScheme[i] != 'g';
    }
  }

  /** No occurrence of `git://` can start inside the `http://` prefix either. */
  lemma NoGitSchemeInHttpPrefix(rest: string, i: nat)
    requires i < |HttpScheme|
    ensures !OccursAt(HttpScheme + rest, GitScheme, i)
  {
    var s := HttpScheme + rest;
    if i + |GitScheme| <= |s| {
      assert s[i..i + |GitScheme|][0] == s[i] == HttpScheme[i];
      assert HttpScheme[i] != 'g';
    }
  }

  /** No occurrence of `git://` can start inside the `git@github.com:` prefix. */
  lemma NoGitSchemeInSshPrefix(rest: string, i: nat)
    requires i < |GithubSsh|
    ensures !OccursAt(GithubSsh + rest, GitScheme, i)
  {
    var s := GithubSsh + rest;
    if i + |GitScheme| <= |s| {
      assert s[i..i + |GitScheme|][0] == s[i] == GithubSsh[i];
      assert s[i..i + |GitScheme|][3] == s[i + 3];
      assert i + 3 < |GithubSsh| ==> s[i + 3] == GithubSsh[i + 3];
      assert GithubSsh[i] != 'g' || (i + 3 < |GithubSsh| && GithubSsh[i + 3] != ':');
    }
  }

  /** A `git://` URL is served over plain `http://`, the rest left as it was. */
  lemma {:induction false} RewriteGitScheme(rest: string)
    requires Missing(rest, GithubSsh)
    ensures Rewrite(GitScheme + rest) == HttpScheme + rest
  {
    LeadingOccurrence(GitScheme, rest);
    var once := ReplaceFirst(GitScheme + rest, GitScheme, HttpScheme);
    assert once == HttpScheme + rest by {
      assert (GitScheme + rest)[|GitScheme|..] == rest;
    }
    forall i: nat ensures !OccursAt(once, GithubSsh, i) {
      if i < |HttpScheme| {
        NoSshInHttpPrefix(rest, i);
      } else if OccursAt(once, GithubSsh, i) {
        OccursInSuffix(HttpScheme, rest, GithubSsh, i);
      }
    }
  }

  /** The SSH shorthand `git@github.com:user/repo` becomes `https://github.com/user/repo`. */
  lemma {:induction false} RewriteGithubSsh(rest: string)
    requires Missing(rest, GitScheme)
    ensures Rewrite(GithubSsh + rest) == GithubHttps + rest
  {
    var s := GithubSsh + rest;
    forall i: nat ensures !OccursAt(s, GitScheme, i) {
      if i < |GithubSsh| {
        NoGitSchemeInSshPrefix(rest, i);
      } else if OccursAt(s, GitScheme, i) {
        OccursInSuffix(GithubSsh, rest, GitScheme, i);
      }
    }
    assert ReplaceFirst(s, GitScheme, HttpScheme) == s;
    LeadingOccurrence(GithubSsh, rest);
    assert s[|GithubSsh|..] == rest;
  }

  /** A URL with neither pattern passes through unchanged, so rewriting it again changes nothing either. */
  lemma RewriteStableOnCleanUrl(url: string)
    requires Missing(url, GitScheme) && Missing(url, GithubSsh)
    ensures Rewrite(Rewrite(url)) == Rewrite(url) == url
  {
  }

  /**
   * Rewriting is not idempotent in general: each pass replaces only the first
   * `git://`, so a URL holding two of them changes again on a second pass.
   */
  lemma {:induction false} RewriteNotIdempotent()
    ensures Rewrite(Rewrite("git://git://x")) != Rewrite("git://git://x")
  {
    var tail := "git://x";
    assert Missing(tail, GithubSsh);
    RewriteGitScheme(tail);
    assert GitScheme + tail == "git://git://x";
    var once := HttpScheme + tail;
    assert FirstOccurrence(once, GitScheme, |HttpScheme|) by {
      assert once[|HttpScheme|..|HttpScheme| + |GitScheme|] == GitScheme;
      forall j: nat | j < |HttpScheme| ensures !OccursAt(once, GitScheme, j) {
        NoGitSchemeInHttpPrefix(tail, j);
      }
    }
    var step := ReplaceFirst(once, GitScheme, HttpScheme);
    assert step == HttpScheme + HttpScheme + "x";
    assert Missing(step, GithubSsh) by {
      forall i: nat ensures !OccursAt(step, GithubSsh, i) {
        if i < |HttpScheme| {
          NoSshInHttpPrefix(HttpScheme + "x", i);
        }
      }
    }
    assert Rewrite(once) == step;
    assert step[|HttpScheme|] != once[|HttpScheme|];
  }
}

=== FILE: wrappers.dfy ===
/** Optional values, standing for JavaScript lookups that may come back `undefined`. */
module Wrappers {

  datatype Option<+T> = None | Some(value: T) {

    /** The wrapped value, or `default` when there is none (JavaScript's `x || default` on objects). */
    function GetOr(default: T): T {
      match this
      case Some(v) => v
      case None => default
    }
  }

  /** Looking a key up in a map the way `obj[key]` does: `None` stands for `undefined`. */
  function Get<K, V>(m: map<K, V>, k: K): (r: Option<V>)
    ensures r.Some? <==> k in m
    ensures r.Some? ==> m[k] == r.value
  {
    if k in m then Some(m[k]) else None
  }
}
